=== FILE: README.md ===
# Quasar desktop core, modelled in Dafny

Quasar is a browser desktop built with React. A dock opens app windows. Each
app (the Finder, the Mila canvas, the text editor) keeps its data in a
Firebase real-time database. This project models the logic behind those
screens as pure state transitions and proves properties about them:

- `Navigation` (navigation.dfy): the folder history shared by the Finder hook
  and Mila. It holds the visited ids, a cursor into them, and the folder shown.
- `Folders` (folders.dfy): the folder tree and the favourites, as maps from
  key to record. It also covers the edits that the hook and Mila make to them.
- `FileSystem` (file_system.dfy): the `useFileSystem` hook. Every handler is
  one transition, and the whole hook is an action sequence that keeps its
  invariant.
- `Finder` (finder.dfy): the explorer view's mouse and edit handlers. Each
  returns the view's next state and the hook call it makes.
- `Mila` (mila.dfy): the canvas with text boxes, the slash-command menu, and
  folders with history navigation.
- `TextEditor` (text_editor.dfy): the canvas editor with its "/exemplar" mode.
- `WindowManager` (window_manager.dfy): the window-manager hook. It covers
  opening, closing and focusing windows, and stacking order.
- `Desktop` (desktop.dfy): the desktop's dock toggle and close button.
- `AppWindow` (app_window.dfy): how a window computes its internal route from
  the browser path.
- `Common` and `Seqs` hold the shared vocabulary:
  - `Option`;
  - positions;
  - JavaScript truthiness;
  - ASCII case mapping;
  - `filter` and `find` on lists;
  - subsequences.

Modelling choices:

- Database writes are applied directly to the local maps. This treats each
  write as if its snapshot had already come back.
- Push keys, `Date.now()` values and element bounding boxes are parameters.
- `null` is modelled as `None`.

## Model

| member | source | states |
|---|---|---|
| Navigation.Start | hooks/useFileSystem.ts:12-16 | The hook starts on "root", with a one-entry history and the cursor on it. Forward is disabled. |
| Navigation.NavigateTo | hooks/useFileSystem.ts:63-73 | Opening a folder shows it and advances the cursor. From a valid state, the entries up to the cursor are kept, the new folder becomes the last entry, and there is nothing left to go forward to. |
| Navigation.NavigateForward | hooks/useFileSystem.ts:82-87 | Forward does nothing at the end of the history. Otherwise it moves the cursor one entry along an unchanged history and shows that entry. It keeps the cursor on the folder shown. |
| Navigation.ForwardTimesReaches | hooks/useFileSystem.ts:82-87 | Pressing Forward k times reaches entry min(index+k, last), showing that entry. The history is never altered. |
| Navigation.ForwardAfterNavigateIsNoop | hooks/useFileSystem.ts:63-87 | Opening a folder discards the forward history, so Forward after it does nothing, however often it is pressed. |
| Folders.RootStore | hooks/useFileSystem.ts:28-35 | The tree written into an empty database holds only the root, which has no parent. |
| Folders.Contents | hooks/useFileSystem.ts:54-61 | A record is listed in folder f exactly when its parent id is f. Listed records are unchanged. |
| Folders.Parent | hooks/useFileSystem.ts:75-80 | "Up" has a target exactly when the record exists and its parent id is non-null and non-empty. The target is that parent id. |
| Folders.Name | hooks/useFileSystem.ts:126-131 | A label is never empty. It is the stored name when that name is non-empty, and "Unknown Folder" otherwise. |
| Folders.Create | hooks/useFileSystem.ts:89-101 | A push adds exactly one key. The new record has that key as its id, the given name and position, and the given parent. Other records are untouched. |
| Folders.Rename | hooks/useFileSystem.ts:103-105 | The update changes only the name field of one record. Every other key and field is unchanged. |
| Folders.Move | hooks/useFileSystem.ts:111-116 | The update changes only the position field of one record. Every other key and field is unchanged. |
| Folders.Delete | hooks/useFileSystem.ts:107-109 | The remove drops exactly that key. Every other record is unchanged. |
| Folders.AddFavorite | hooks/useFileSystem.ts:118-120 | The folder is stored under its own id, which keeps the invariant that each favourite sits under its id. Other favourites are untouched. |
| Folders.RemoveFavorite | hooks/useFileSystem.ts:122-124 | Exactly the favourite under that id disappears. The others are untouched. |
| Folders.AddFavoriteIdempotent | hooks/useFileSystem.ts:118-120 | Favouriting twice is the same as favouriting once. |
| Folders.RemoveUndoesAdd | hooks/useFileSystem.ts:118-124 | Unfavouriting a folder that was not a favourite undoes favouriting it. |
| Folders.ContentsArePartition | hooks/useFileSystem.ts:54-61 | A record without a parent, such as the root, is never listed. No record is listed under two folders. |
| Folders.CreateListsChild | hooks/useFileSystem.ts:89-101 | A created folder joins its parent's listing, with that exact record. It is in no other folder's listing. |
| Folders.DeleteLeavesOrphans | hooks/useFileSystem.ts:107-109 | Deleting removes the folder from every listing. Its children stay listed under the deleted id, so navigation can no longer reach them. |
| Folders.EditsKeepListing | hooks/useFileSystem.ts:103-116 | Renaming and moving never change which folder lists which record. |
| Folders.NameFollowsEdits | hooks/useFileSystem.ts:126-131 | The label follows a rename to a non-empty name. It falls back to "Unknown Folder" after a delete. |
| FileSystem.Initial | hooks/useFileSystem.ts:9-17 | Before any snapshot, the hook has an empty tree and no favourites, and its history is the fresh one holding only root. Its invariant holds. |
| FileSystem.OnSnapshot | hooks/useFileSystem.ts:19-52 | A non-empty tree replaces the local copy. An empty tree ends up holding only the root record the hook writes. Favourites follow the database, and navigation is untouched. |
| FileSystem.FolderContents | hooks/useFileSystem.ts:153 | The items shown are exactly the records whose parent is the current folder, each exactly as stored. |
| FileSystem.NavigateToFolder | hooks/useFileSystem.ts:63-73 | The data is untouched. The history is cut after the cursor and the folder appended, as in Navigation.NavigateTo, so the folder is shown. The invariant holds, and Forward is disabled afterwards. |
| FileSystem.NavigateUp | hooks/useFileSystem.ts:75-80 | Nothing happens without a truthy parent id. Otherwise "up" is opening that parent. The invariant is kept. |
| FileSystem.NavigateForward | hooks/useFileSystem.ts:82-87 | Forward is a no-op when disabled. Otherwise it is one step along the unchanged history. The data is untouched and the invariant is kept. |
| FileSystem.CreateFolder | hooks/useFileSystem.ts:89-101 | Exactly one key, the push key, joins the tree. Its record carries that key as id and is among the items shown, with the given name and position. Every other record, the favourites and navigation are unchanged. |
| FileSystem.RenameFolder | hooks/useFileSystem.ts:103-105 | Only the tree changes, by a one-field update of that record. The invariant is kept. |
| FileSystem.DeleteFolder | hooks/useFileSystem.ts:107-109 | Only that key leaves the tree, and every other record keeps its value, children included. Its favourite copy stays. The invariant is kept. |
| FileSystem.UpdateFolderPosition | hooks/useFileSystem.ts:111-116 | Only the tree changes, by a one-field update of that record. The invariant is kept. |
| FileSystem.AddToFavorites | hooks/useFileSystem.ts:118-120 | Only the favourites change, and the folder is now a favourite. The invariant is kept. |
| FileSystem.RemoveFromFavorites | hooks/useFileSystem.ts:122-124 | Only the favourites change, and that id is no longer a favourite. The invariant is kept. |
| FileSystem.WipeDatabase | hooks/useFileSystem.ts:133-149 | After a wipe the tree holds just the root record and there are no favourites. The history is just root, root shows no items, and the invariant holds. |
| FileSystem.RunPreservesValid | hooks/useFileSystem.ts:151-167 | Under any sequence of the hook's handlers, the cursor stays on the folder shown and every record stays under its own id. |
| Finder.MouseMove | app/apps/finder/FileExplorer.tsx:70-80 | With the explorer mounted, the sidebar is visible exactly when the pointer is under 100 px from the left edge or a folder is being dragged. Without the explorer nothing changes. |
| Finder.Initial | app/apps/finder/FileExplorer.tsx:52-65 | The explorer mounts with no menu, nothing edited, pending or dragged, and the sidebar hidden and not a drop target. |
| Finder.TrackKeepsDrag | app/apps/finder/FileExplorer.tsx:70-80 | While a folder is dragged and the sidebar shows, no sequence of moves, enters and leaves hides the sidebar or forgets the folder. |
| Finder.DragKeepsSidebarVisible | app/apps/finder/FileExplorer.tsx:123-126 | From the start of a drag, whatever the pointer does, the sidebar stays visible until the drop. |
| Finder.LeaveThenMove | app/apps/finder/FileExplorer.tsx:292-297 | Without a drag, leaving hides the sidebar, and a following move shows it again exactly when the pointer is within 100 px of the left edge. |
| Finder.DragStart | app/apps/finder/FileExplorer.tsx:123-126 | Starting a drag records the folder and shows the sidebar. Nothing else changes. |
| Finder.DropPosition | app/apps/finder/FileExplorer.tsx:130-133 | The drop point is the old position moved by the offset. A folder without a position counts as being at the origin. |
| Finder.DragEnd | app/apps/finder/FileExplorer.tsx:128-143 | Over the sidebar the folder is favourited; elsewhere it moves to the drop point. Either way the drag and the over-sidebar mark end. |
| Finder.SidebarEnter | app/apps/finder/FileExplorer.tsx:288-291 | Entering shows the sidebar and marks it as the drop target. |
| Finder.SidebarLeave | app/apps/finder/FileExplorer.tsx:292-297 | Leaving clears the drop target. The sidebar stays visible only if it was visible and a drag is in progress. |
| Finder.OpenContextMenu | app/apps/finder/FileExplorer.tsx:89-98 | With the explorer mounted, the menu opens at the explorer-relative point: adding the explorer's origin gives back the click point. Otherwise nothing changes. |
| Finder.CloseContextMenu | app/apps/finder/FileExplorer.tsx:100 | The menu closes. Nothing else changes. |
| Finder.DoubleClickFolder | app/apps/finder/FileExplorer.tsx:102-104 | Double-clicking a folder asks the hook to open it. The explorer's own state does not change. |
| Finder.CreateFolderFromMenu | app/apps/finder/FileExplorer.tsx:106-113 | This needs an open menu; otherwise it is a no-op. A pending folder with the temporary id is placed at the menu point and put in edit mode, and the menu closes. |
| Finder.SubmitNewFolderName | app/apps/finder/FileExplorer.tsx:115-121 | This needs a pending folder; otherwise no call is made. The folder is created at the pending place, and the pending folder and edit mode are cleared. |
| Finder.StartRename | app/apps/finder/FileExplorer.tsx:179-185 | Double-clicking a label puts that folder in edit mode. |
| Finder.SubmitRename | app/apps/finder/FileExplorer.tsx:161-177 | Blur or Enter renames the folder to the input's value and leaves edit mode. |
| Finder.Perform | app/apps/finder/index.tsx:25-44 | Handing any explorer call to the hook keeps the hook's invariant. No call means no change. |
| Finder.DropOnSidebarFavourites | app/apps/finder/FileExplorer.tsx:135-137 | A folder dropped on the sidebar becomes a favourite. The tree and navigation are untouched. |
| Finder.DropElsewhereMoves | app/apps/finder/FileExplorer.tsx:130-139 | A stored folder dropped elsewhere moves to the drop point and keeps its name. The favourites are untouched. |
| Finder.DoubleClickOpensFolder | app/apps/finder/FileExplorer.tsx:102-104 | Through the hook, a double-click on a folder opens it: the history is cut after the current entry and the folder is appended, so forward is unavailable. The tree, the favourites and the explorer's state are untouched. |
| Finder.RenameFlow | app/apps/finder/FileExplorer.tsx:161-177 | Starting an edit and then leaving it renames exactly that folder in the hook's tree and ends edit mode. History and favourites are untouched. |
| Finder.NewFolderFlow | app/apps/finder/FileExplorer.tsx:106-121 | "New Folder" followed by a name yields a folder with that name at the menu point, among the items shown. Nothing is left pending, in edit mode or open. |
| Mila.OnSnapshot | app/apps/mila/Mila.tsx:56-90 | The lists are rebuilt from the database, and every folder takes its key as its id (Mila never stores an `id` property, see Left out). Apart from that, the records are as stored. Navigation, typing, the menus, the command and the style are untouched. |
| Mila.Initial | app/apps/mila/Mila.tsx:33-51 | The canvas starts with nothing typed or drawn, the typing point at the origin, no menu, the command menu closed with an empty command, the history on root, and its invariant holding. |
| Mila.CanvasDoubleClick | app/apps/mila/Mila.tsx:92-107 | With the canvas mounted, typing starts at the canvas-relative point with empty text and the default style. Data, navigation, the context menu and the command menu are untouched. Without a mounted canvas nothing changes. |
| Mila.InputChange | app/apps/mila/Mila.tsx:152-154 | The typed value becomes the text. Nothing else changes. |
| Mila.CreateTextBox | app/apps/mila/Mila.tsx:131-150 | Only non-empty text is pushed, as one new box with the text, point and style. Typing, the command menu and the style are reset either way. |
| Mila.CommandSelect | app/apps/mila/Mila.tsx:187-202 | "exemplar" switches to the exemplar style and clears the text. Any other command keeps both. Any command closes and clears the command menu. Nothing else changes: data, navigation, typing, its point and the context menu stay. |
| Mila.KeyDown | app/apps/mila/Mila.tsx:109-129 | Each key's effect, case by case: Enter commits and "/" opens the menu. In the menu, Tab on "/e" or "/ex" selects exemplar, Escape closes, and other keys append. Outside the menu, other keys do nothing. The invariant is kept. |
| Mila.SlashETabSelectsExemplar | app/apps/mila/Mila.tsx:109-129 | Typing "/", "e" and Tab selects the exemplar style, closes the menu and clears the text. |
| Mila.TabAfterLongerPrefixIsAppended | app/apps/mila/Mila.tsx:115-127 | Tab completes only "/e" and "/ex". After "/exe" it is appended to the command like any other key. |
| Mila.KeysKeepCommandConsistent | app/apps/mila/Mila.tsx:109-129 | Under any key sequence, a closed menu holds no command and an open one holds a command starting with "/". |
| Mila.TextBoxDrag | app/apps/mila/Mila.tsx:156-163 | Dragging a text box changes only its position. |
| Mila.OpenContextMenu | app/apps/mila/Mila.tsx:165-172 | The handler alone opens the menu at the click point, for the canvas or for the folder clicked. |
| Mila.RightClickFolder | app/apps/mila/Mila.tsx:300-341 | As wired, a right-click on a folder ends with the canvas menu open, because the canvas handler runs after the folder's. |
| Mila.FolderContextMenu | app/apps/mila/Mila.tsx:341 | A right-click that stops at the folder opens that folder's menu at the click point and changes nothing else. |
| Mila.FolderMenuUnreachable | app/apps/mila/Mila.tsx:362-372 | As wired, after a right-click on a folder, "Rename" and "Delete" change nothing. |
| Mila.FolderMenuReachesFolder | app/apps/mila/Mila.tsx:362-372 | With the folder's menu open, "Rename" gives the folder the fixed name and "Delete" removes it. |
| Mila.DoubleClickFolder | app/apps/mila/Mila.tsx:293-340 | As wired, a double-click on a folder opens it and, with the canvas mounted, also starts typing at the canvas-relative point with empty text and no style. The lists, the menus and the command are untouched, and the invariant is kept. |
| Mila.FolderDoubleClickStartsTyping | app/apps/mila/Mila.tsx:293-340 | As wired, a double-click on a folder leaves a typing input open in the opened folder, while opening the folder alone leaves typing off. |
| Mila.CloseContextMenu | app/apps/mila/Mila.tsx:174-176 | The menu closes. Nothing else changes. |
| Mila.CanvasClick | app/apps/mila/Mila.tsx:294-299 | A click commits any text being typed and always closes the menu. Afterwards nothing is being typed. |
| Mila.Wipe | app/apps/mila/Mila.tsx:178-185 | A wipe empties both lists and closes the menu. Everything else is left as it was: the history, typing and its point, the text, the style and the command menu. |
| Mila.VisibleFolders | app/apps/mila/Mila.tsx:333-334 | Exactly the folders whose parent is the current folder are drawn. |
| Mila.CreateFolder | app/apps/mila/Mila.tsx:204-211 | Exactly one key, the push key, joins the folders. The new folder's parent is the current folder, so it is drawn at once. Other folders are untouched. |
| Mila.NavigateToFolder | app/apps/mila/Mila.tsx:213-220 | The history is cut after the cursor and the folder appended, as in the Finder's hook. The folder is shown, Forward becomes disabled, and nothing but the history changes. |
| Mila.NavigateUp | app/apps/mila/Mila.tsx:222-229 | Nothing happens when the current folder is not stored, as for root, or its parent id is falsy. Otherwise "up" opens the parent. |
| Mila.NavigateForward | app/apps/mila/Mila.tsx:231-236 | Forward is a no-op when disabled. Otherwise it is one step along the unchanged history. |
| Mila.ForwardDisabled | app/apps/mila/Mila.tsx:282-288 | The button is disabled exactly when the history cannot go forward. In a valid state, that is when the cursor is on the last entry. |
| Mila.FolderDrag | app/apps/mila/Mila.tsx:238-245 | Dragging a folder changes only its position field. The invariant is kept. |
| Mila.RenameFolder | app/apps/mila/Mila.tsx:247-251 | Renaming changes only that folder's name field. The invariant is kept. |
| Mila.DeleteFolder | app/apps/mila/Mila.tsx:253-255 | Deleting removes only that folder. The invariant is kept. |
| Mila.ChooseMenuEntry | app/apps/mila/Mila.tsx:345-376 | The canvas menu offers "New Folder" at its point and the wipe. A folder's menu offers "Renamed Folder" and delete for that folder. Anything else is a no-op. How a folder's menu is reached is under Findings. |
| Mila.RunPreservesValid | app/apps/mila/Mila.tsx:92-255 | Starting from any valid state, under any sequence of canvas actions, the cursor stays on the folder shown, folder ids equal their keys, and the command menu stays consistent. |
| TextEditor.Initial | app/apps/texteditor/App.tsx:24-39 | The editor starts not typing, with no boxes, the typing point at the origin, empty text and no menu. Exemplar mode is off and the style is Dank Mono, so the style matches the mode. |
| TextEditor.OnSnapshot | app/apps/texteditor/App.tsx:43-59 | The box list follows the database. Nothing else changes. |
| TextEditor.CanvasDoubleClick | app/apps/texteditor/App.tsx:61-81 | With the canvas mounted, typing starts at the canvas-relative point with empty text, the default look and exemplar mode off. |
| TextEditor.CreateTextBox | app/apps/texteditor/App.tsx:89-107 | Only non-empty text is pushed, as one new box with the text, point and look. Typing, text, look and mode are reset. |
| TextEditor.KeyDown | app/apps/texteditor/App.tsx:83-87 | Only Enter has an effect, and it commits. |
| TextEditor.InputChange | app/apps/texteditor/App.tsx:109-139 | A value ending in "/exemplar" turns exemplar mode on, and the kept text plus the suffix gives back the value. Any other value is kept as typed, and the mode is unchanged. |
| TextEditor.TextBoxDrag | app/apps/texteditor/App.tsx:141-148 | Dragging a box changes only its position. |
| TextEditor.OpenContextMenu | app/apps/texteditor/App.tsx:150-153 | The menu opens at the click point. Nothing else changes. |
| TextEditor.CloseContextMenu | app/apps/texteditor/App.tsx:155-157 | The menu closes. Nothing else changes. |
| TextEditor.Wipe | app/apps/texteditor/App.tsx:159-164 | A wipe empties the box list. Nothing else changes. |
| TextEditor.RunKeepsStyleFollowsMode | app/apps/texteditor/App.tsx:61-164 | Under any actions, the exemplar look is in use exactly when exemplar mode is on. |
| TextEditor.ExemplarIsSticky | app/apps/texteditor/App.tsx:109-134 | Once on, exemplar mode survives every action except a commit or a new double-click. |
| WindowManager.Title | lib/useWindowManager.ts:20 | The title is the app id with its first character upper-cased. It has the same length, and the rest is unchanged. |
| WindowManager.TitleIdempotent | lib/useWindowManager.ts:20 | Capitalising a title again changes nothing. |
| WindowManager.OpenWindow | lib/useWindowManager.ts:14-25 | Opening appends one full-screen window, with the given time as id and the previous count as its stacking order. Earlier windows are untouched. |
| WindowManager.CloseWindow | lib/useWindowManager.ts:27-31 | The result keeps every other window, in order and as many times as it occurred, and has no window with the id. An unknown id changes nothing. With unique ids, exactly one window goes. |
| Seqs.FilterMultiset | lib/useWindowManager.ts:29 | `filter` keeps every kept element exactly as often as it occurred and drops every other one entirely. |
| WindowManager.MaxZ | lib/useWindowManager.ts:41 | The maximum is at least every stacking order and is attained by some window. |
| WindowManager.FocusWindow | lib/useWindowManager.ts:33-45 | An unknown id changes nothing. Otherwise the others keep their order, and the first window with the id moves to the end, strictly above all of them. |
| WindowManager.PutOnTop | lib/useWindowManager.ts:37-43 | A window appended at one above the highest stacking order lies strictly above every window before it. |
| WindowManager.FocusKeepsCount | lib/useWindowManager.ts:33-45 | With unique ids, focusing keeps the number of windows. |
| WindowManager.CloseUndoesOpen | lib/useWindowManager.ts:14-31 | Closing a freshly opened window, whose id no other window has, restores the list. |
| WindowManager.OpenAfterFocusIsNotAbove | lib/useWindowManager.ts:14-45 | Counterexample: after one window is focused twice (order 2), a newly opened window gets order 1 and lies below it. |
| WindowManager.OpenWindowOnTop | lib/useWindowManager.ts:14-25 | Corrected open: the new window is appended strictly above every window already open. Earlier windows are untouched. On an empty desktop its stacking order is 0. |
| WindowManager.OnTopAgreesBeforeFocus | lib/useWindowManager.ts:14-25 | While the stacking orders are still 0, 1, 2, ... in list order, the corrected open equals the open as written. |
| WindowManager.OpenOnTopAfterFocusIsAbove | lib/useWindowManager.ts:14-45 | On the counterexample, the corrected open gives the new window order 3, above the focused one's 2. |
| Desktop.ToggleApp | app/components/Desktop.tsx:24-38 | Toggling flips whether the app has a window. Closing drops all its windows and keeps the others in order, each as often as it occurred. Opening appends one window titled with the app name. "One window per app" is preserved. |
| Desktop.ToggleTwiceRestores | app/components/Desktop.tsx:24-38 | Toggling an app that had no window twice restores the list. |
| Desktop.CloseWindow | app/components/Desktop.tsx:40-43 | The close button removes exactly the windows with that id and keeps the rest in order, each as often as it occurred. "One window per app" is preserved. |
| AppWindow.IndexFrom | app/components/AppWindow.tsx:23 | The search behind `replace` returns the leftmost occurrence at or after the start, or reports that none exists. |
| AppWindow.ReplaceFirst | app/components/AppWindow.tsx:23 | `replace` with a string pattern replaces only the leftmost occurrence and leaves the text before and after it as it was. Without an occurrence it changes nothing. |
| AppWindow.ReplaceLeading | app/components/AppWindow.tsx:21-23 | When the path starts with the prefix, `replace` removes that leading copy. |
| AppWindow.StripLeading | app/components/AppWindow.tsx:21-23 | Deleting the leading prefix leaves the rest of the route: the prefix put back in front gives the route, and nothing is left exactly when the route is the prefix. |
| AppWindow.InternalPath | app/components/AppWindow.tsx:18-26 | Off the app's prefix the path is kept. Under it, the new path is non-empty, and putting the prefix back in front gives the route, or "/" when nothing follows the prefix. |
| Common.LowerIdempotent | app/components/AppWindow.tsx:21 | Lower-casing an already lower-cased name changes nothing. |
| AppWindow.CaseInsensitiveApp | app/components/AppWindow.tsx:21 | The case of the app name does not matter. |
| AppWindow.NotSegmentAware | app/components/AppWindow.tsx:21-23 | Matching is by characters, not path segments: the finder window claims "/apps/finderx" with path "x". |

## Findings

| source | as written | input that shows it | evidently intended | confidence | as-written member | corrected member |
|---|---|---|---|---|---|---|
| app/apps/mila/Mila.tsx:300-341 | The folder is drawn inside the canvas and does not stop its `contextmenu` event, so the canvas handler runs after the folder's and its `setContextMenu` wins | a right-click on any drawn folder | the folder's menu with "Rename" and "Delete" (lines 362-372) | medium, not executed | Mila.RightClickFolder, Mila.FolderMenuUnreachable | Mila.FolderContextMenu, Mila.FolderMenuReachesFolder |
| app/apps/mila/Mila.tsx:293-340 | The folder does not stop its `dblclick` event, so after the folder opens, the canvas handler starts typing at the same point | a double-click on any drawn folder while nothing is typed | opening the folder only | medium, not executed | Mila.DoubleClickFolder, Mila.FolderDoubleClickStartsTyping | Mila.NavigateToFolder |
| lib/useWindowManager.ts:22 | A new window's stacking order is the number of open windows, but focusing raises a window to one above the highest order, so orders can exceed the count | open one window, focus it twice (order 2), then open another (order 1); the hook has no caller in this repository, the desktop keeps its own window list | the new window drawn above every open window | low, not executed | WindowManager.OpenWindow, WindowManager.OpenAfterFocusIsNotAbove | WindowManager.OpenWindowOnTop, WindowManager.OpenOnTopAfterFocusIsAbove |

## Left out

- The database is asynchronous, and subscriptions can arrive in any order. Each write is modelled as already reflected in the local copy. Listener unsubscription on unmount is not modelled.
- Folders.Rename: an update of a missing id is modelled as no change. The database would instead create a partial record holding only the name.
- Folders.Move: an update of a missing id is modelled as no change. The database would instead create a partial record holding only the position.
- Mila.TextBoxDrag: an update of a missing box is modelled as no change. The database would instead create a partial record holding only the position.
- TextEditor.TextBoxDrag: an update of a missing box is modelled as no change. The database would instead create a partial record holding only the position.
- Common.Lower: only ASCII letters change case. JavaScript's full Unicode case mapping is not modelled.
- WindowManager.Title: only ASCII letters change case. JavaScript's full Unicode case mapping is not modelled.
- Finder.DropPosition: `|| 0` also replaces NaN. Positions are integers here, so NaN cannot arise.
- Local lists are modelled as maps keyed by id, without order. This covers the text boxes, Mila's folders and the favourites. Mila's `find` over its folder list is lookup by key, which is the same since ids equal keys.
- Mila.OnSnapshot: each folder's id is its key, whereas `{ id: key, ...value }` would let a stored `id` property override the key. Mila never writes one: `createFolder` pushes only name, position and parent (app/apps/mila/Mila.tsx:206-210), and the drag and rename paths write single fields (lines 243 and 249).
- Mila.OpenContextMenu: each handler is modelled on its own. DOM event propagation is modelled only where it changes the outcome, as Mila.RightClickFolder and Mila.DoubleClickFolder. The action sequence offers both these wired clicks and the handlers that stop at the folder.
- The ContextMenu component is not part of this model. Whether a menu closes after an entry is clicked depends on it. Mila.ChooseMenuEntry therefore leaves the menu as the handler leaves it.
- Mila.ChooseMenuEntry: a folder's menu is modelled as offering only its option list, Rename and Delete. The shared menu component also receives the wipe handler for a folder's menu (app/apps/mila/Mila.tsx:375), but that component is not part of this model, so the model does not promise a wipe from a folder's menu.
- React's batching of state updates and its stale closures are not modelled. Each handler reads the state as it is when the handler runs.
- Rendering components are left out because they hold no state logic beyond the handlers modelled here. They are BlackHole, EnterBlackHole, webglUtils, Dock, Flow, Sidebar, CommandMenu, TextBox, MilaFolder, AppRenderer, the pages and the layouts.
- Measuring the input width and the span used for it is rendering only, so it is left out.
- Focus handling, `preventDefault`, `stopPropagation` and console logging are not modelled.
- FileSystem.GetFolderName and FileSystem.CanNavigateForward delegate directly to Folders.Name and Navigation.CanNavigateForward. Their contracts are stated there.

=== FILE: app_window.dfy ===
/** The path an app window shows for its own routes: when the browser's path
    lies under `/apps/<app name in lower case>`, the window keeps the part after
    that prefix (`/` when nothing is left); otherwise it keeps what it had,
    initially the empty string. */
module AppWindow {
  import opened Common

  const AppsRoot := "/apps/"

  /** The route prefix of an app: `/apps/` and the lower-cased app name. */
  function AppPrefix(appName: string): string
  {
    AppsRoot + Lower(appName)
  }

  /** `pat` occurs in `s` starting at position `j`. */
  predicate OccursAt(s: string, pat: string, j: int)
  {
    0 <= j && j + |pat| <= |s| && s[j..j + |pat|] == pat
  }

  /** The leftmost position at or after `from` where `pat` occurs in `s`. */
  function IndexFrom(s: string, pat: string, from: nat): (r: Option<nat>)
    decreases |s| - from
    ensures r.Some? ==> && from <= r.value && OccursAt(s, pat, r.value)
                        && forall j :: from <= j < r.value ==> !OccursAt(s, pat, j)
    ensures r.None? ==> forall j :: from <= j ==> !OccursAt(s, pat, j)
  {
    if from + |pat| > |s| then None
    else if s[from..from + |pat|] == pat then Some(from)
    else IndexFrom(s, pat, from + 1)
  }

  /** `s.replace(pat, rep)` with a string pattern: only the leftmost occurrence is replaced. */
  function ReplaceFirst(s: string, pat: string, rep: string): (r: string)
    ensures IndexFrom(s, pat, 0).None? ==> r == s
    ensures IndexFrom(s, pat, 0).Some? ==>
              var i := IndexFrom(s, pat, 0).value;
              && |r| == |s| - |pat| + |rep|
              && r[..i] == s[..i] && r[i..i + |rep|] == rep && r[i + |rep|..] == s[i + |pat|..]
  {
    match IndexFrom(s, pat, 0)
    case None => s
    case Some(i) => s[..i] + rep + s[i + |pat|..]
  }

  /** When the pattern starts the string, replacing its first occurrence
      replaces that leading copy. */
  lemma ReplaceLeading(s: string, pat: string, rep: string)
    requires StartsWith(s, pat)
    ensures ReplaceFirst(s, pat, rep) == rep + s[|pat|..]
  {
    assert s[0..|pat|] == pat;
    assert IndexFrom(s, pat, 0) == Some(0);
  }

  /** Deleting a leading copy of the pattern leaves what follows it: the pattern
      put back in front gives the string, and nothing is left exactly when the
      string is the pattern. */
  lemma StripLeading(s: string, pat: string)
    requires StartsWith(s, pat)
    ensures pat + ReplaceFirst(s, pat, "") == s
    ensures ReplaceFirst(s, pat, "") == "" <==> s == pat
  {
    ReplaceLeading(s, pat, "");
    assert ReplaceFirst(s, pat, "") == s[|pat|..];
    assert pat + s[|pat|..] == s;
  }

  /** The effect that runs when the route or the app changes. An updated path
      is never empty, and putting the prefix back in front of it gives the
      route (or the bare prefix when the path is "/"). */
  function InternalPath(prev: string, pathname: string, appName: string): (r: string)
    ensures !StartsWith(pathname, AppPrefix(appName)) ==> r == prev
    ensures StartsWith(pathname, AppPrefix(appName)) ==>
              && r != ""
              && (pathname == AppPrefix(appName) ==> r == "/")
              && (pathname != AppPrefix(appName) ==> AppPrefix(appName) + r == pathname)
  {
    var prefix := AppPrefix(appName);
    if StartsWith(pathname, prefix) then
      StripLeading(pathname, prefix);
      var rest := ReplaceFirst(pathname, prefix, "");
      if rest == "" then "/" else rest
    else prev
  }

  /** The app name's case does not matter. */
  lemma CaseInsensitiveApp(prev: string, pathname: string, appName: string)
    ensures InternalPath(prev, pathname, Lower(appName)) == InternalPath(prev, pathname, appName)
  {
    LowerIdempotent(appName);
  }

  /** Matching is on characters, not path segments: the finder window also
      claims "/apps/finderx", with "x" as its path. */
  lemma NotSegmentAware()
    ensures InternalPath("", "/apps/finderx", "finder") == "x"
  {
    assert Lower("finder") == "finder";
    assert AppPrefix("finder") == "/apps/finder";
    assert StartsWith("/apps/finderx", "/apps/finder");
  }
}

=== FILE: common.dfy ===
/** Vocabulary shared by every component: optional values, integer screen
    points, and the few string operations the event handlers rely on. */
module Common {

  /** A value that may be absent: JavaScript's `null`/`undefined` for one field. */
  datatype Option<T> = None | Some(value: T)

  /** A point on screen. Pixel coordinates are modelled as integers. */
  datatype Pos = Pos(x: int, y: int)

  /** Component-wise sum of a point and an offset. */
  function Translate(p: Pos, d: Pos): Pos
  {
    Pos(p.x + d.x, p.y + d.y)
  }

  /** JavaScript truthiness of a `string | null` value: present and non-empty. */
  predicate Truthy(s: Option<string>)
  {
    s.Some? && s.value != ""
  }

  /** `s.startsWith(prefix)`. */
  predicate StartsWith(s: string, prefix: string)
  {
    |prefix| <= |s| && s[..|prefix|] == prefix
  }

  /** `s.endsWith(suffix)`. */
  predicate EndsWith(s: string, suffix: string)
  {
    |suffix| <= |s| && s[|s| - |suffix|..] == suffix
  }

  /** Upper-casing of one character (ASCII letters only). */
  function UpperChar(c: char): char
  {
    if 'a' <= c <= 'z' then (c as int - 32) as char else c
  }

  /** Lower-casing of one character (ASCII letters only). */
  function LowerChar(c: char): char
  {
    if 'A' <= c <= 'Z' then (c as int + 32) as char else c
  }

  /** `s.toLowerCase()`, restricted to ASCII letters. */
  function Lower(s: string): (r: string)
    ensures |r| == |s|
    ensures forall i :: 0 <= i < |s| ==> r[i] == LowerChar(s[i])
  {
    if |s| == 0 then "" else [LowerChar(s[0])] + Lower(s[1..])
  }

  /** Lower-casing twice is lower-casing once. */
  lemma LowerIdempotent(s: string)
    ensures Lower(Lower(s)) == Lower(s)
  {
    var r := Lower(s);
    assert forall i :: 0 <= i < |r| ==> LowerChar(r[i]) == r[i];
  }
}

=== FILE: desktop.dfy ===
/** The desktop's own window list: the dock toggles an app's window on and
    off, and a window's close button removes it. `Date.now()`-based window ids
    arrive as a parameter. */
module Desktop {
  import opened Common
  import opened Seqs

  datatype OpenWindow = OpenWindow(id: string, title: string, appName: string)

  function OfApp(app: string): OpenWindow -> bool
  {
    (w: OpenWindow) => w.appName == app
  }

  function NotOfApp(app: string): OpenWindow -> bool
  {
    (w: OpenWindow) => w.appName != app
  }

  function NotId(id: string): OpenWindow -> bool
  {
    (w: OpenWindow) => w.id != id
  }

  /** `prev.some(window => window.appName === app)`. */
  predicate IsOpen(ws: seq<OpenWindow>, app: string)
  {
    Find(ws, OfApp(app)).Some?
  }

  function DifferentApps(a: OpenWindow, b: OpenWindow): bool
  {
    a.appName != b.appName
  }

  /** No app has two windows. */
  predicate OnePerApp(ws: seq<OpenWindow>)
  {
    Pairwise(ws, DifferentApps)
  }

  /** The dock's toggle: an open app loses every window it has, the others
      keeping their order and multiplicities; an app without a window gets one
      at the end, titled with the app name. */
  function ToggleApp(ws: seq<OpenWindow>, app: string, freshId: string): (r: seq<OpenWindow>)
    ensures IsOpen(ws, app) ==> && !IsOpen(r, app)
                                && Subsequence(r, ws)
                                && (forall i :: 0 <= i < |ws| && ws[i].appName != app ==> ws[i] in r)
                                && (forall w :: multiset(r)[w] == if w.appName != app then multiset(ws)[w] else 0)
    ensures !IsOpen(ws, app) ==> r == ws + [OpenWindow(freshId, app, app)]
    ensures IsOpen(r, app) <==> !IsOpen(ws, app)
    ensures OnePerApp(ws) ==> OnePerApp(r)
  {
    if IsOpen(ws, app) then
      var r := Filter(ws, NotOfApp(app));
      FilterIsSubsequence(ws, NotOfApp(app));
      FilterMultiset(ws, NotOfApp(app));
      assert forall i :: 0 <= i < |r| ==> !OfApp(app)(r[i]);
      if OnePerApp(ws) then
        SubsequencePairwise(r, ws, DifferentApps);
        r
      else r
    else
      var w := OpenWindow(freshId, app, app);
      var r := ws + [w];
      assert r[|ws|] == w && OfApp(app)(r[|ws|]);
      assert OnePerApp(ws) ==> OnePerApp(r) by {
        if OnePerApp(ws) {
          forall i, j | 0 <= i < j < |r| ensures DifferentApps(r[i], r[j]) {
            if j < |ws| {
              assert r[i] == ws[i] && r[j] == ws[j];
            } else {
              assert !OfApp(app)(ws[i]);
            }
          }
        }
      }
      r
  }

  /** Toggling an app that had no window, and toggling it again, restores the list. */
  lemma ToggleTwiceRestores(ws: seq<OpenWindow>, app: string, id1: string, id2: string)
    requires !IsOpen(ws, app)
    ensures ToggleApp(ToggleApp(ws, app, id1), app, id2) == ws
  {
    var w := OpenWindow(id1, app, app);
    assert (ws + [w])[|ws|] == w && OfApp(app)(w);
    FilterConcat(ws, [w], NotOfApp(app));
    assert forall i :: 0 <= i < |ws| ==> NotOfApp(app)(ws[i]);
    FilterKeepsAll(ws, NotOfApp(app));
    assert Filter([w], NotOfApp(app)) == [] by {
      assert [w][1..] == [];
    }
  }

  /** A window's close button removes exactly the windows with that id, keeping
      the rest in order and with their multiplicities. */
  function CloseWindow(ws: seq<OpenWindow>, id: string): (r: seq<OpenWindow>)
    ensures forall i :: 0 <= i < |r| ==> r[i].id != id
    ensures forall i :: 0 <= i < |ws| && ws[i].id != id ==> ws[i] in r
    ensures Subsequence(r, ws)
    ensures forall w :: multiset(r)[w] == if w.id != id then multiset(ws)[w] else 0
    ensures OnePerApp(ws) ==> OnePerApp(r)
  {
    var r := Filter(ws, NotId(id));
    FilterIsSubsequence(ws, NotId(id));
    FilterMultiset(ws, NotId(id));
    if OnePerApp(ws) then
      SubsequencePairwise(r, ws, DifferentApps);
      r
    else r
  }
}

=== FILE: file_system.dfy ===
/** The file-system hook behind the Finder: the local copy of the folder tree
    and of the favourites, and the navigation history. Every handler is one
    atomic transition of `State`; writes to the database are applied to the
    maps directly, and push keys arrive as parameters. */
module FileSystem {
  import opened Common
  import opened Folders
  import Navigation

  datatype State = State(store: Store, favorites: map<string, Item>, nav: Navigation.Nav)

  /** What every handler keeps: a well-placed cursor and records stored under their ids. */
  predicate Valid(s: State)
  {
    Navigation.Valid(s.nav) && KeysMatch(s.store) && KeysMatch(s.favorites)
  }

  /** Before the first snapshot arrives. */
  function Initial(): (s: State)
    ensures Valid(s) && s.nav.current == Navigation.RootId && |s.store| == 0 && |s.favorites| == 0
    ensures s.nav == Navigation.Start()
  {
    State(map[], map[], Navigation.Start())
  }

  /** The two subscriptions settling: a non-empty tree replaces the local copy,
      an empty tree gets the root record written into it (which then arrives),
      and the favourites copy follows the database, empty when it is empty. */
  function OnSnapshot(s: State, tree: Store, favorites: map<string, Item>): (r: State)
    ensures |tree| == 0 ==> r.store == RootStore()
    ensures |tree| > 0 ==> r.store == tree
    ensures r.favorites == favorites && r.nav == s.nav
  {
    State(if |tree| == 0 then RootStore() else tree, favorites, s.nav)
  }

  /** The items shown: the contents of the current folder. */
  function FolderContents(s: State): (r: map<string, Item>)
    ensures forall k :: k in r <==> k in s.store && s.store[k].parentId == Some(s.nav.current)
    ensures forall k :: k in r ==> r[k] == s.store[k]
  {
    Contents(s.store, s.nav.current)
  }

  function CanNavigateForward(s: State): bool
  {
    Navigation.CanNavigateForward(s.nav)
  }

  function NavigateToFolder(s: State, f: string): (r: State)
    ensures r.store == s.store && r.favorites == s.favorites
    ensures r.nav.current == f && r.nav == Navigation.NavigateTo(s.nav, f)
    ensures Valid(s) ==> Valid(r) && !CanNavigateForward(r)
  {
    s.(nav := Navigation.NavigateTo(s.nav, f))
  }

  /** "Up": open the parent of the current folder; nothing happens when the
      current folder is unknown or its parent id is null or empty. */
  function NavigateUp(s: State): (r: State)
    ensures Parent(s.store, s.nav.current).None? ==> r == s
    ensures Parent(s.store, s.nav.current).Some? ==>
              && r.nav == Navigation.NavigateTo(s.nav, s.store[s.nav.current].parentId.value)
              && r.store == s.store && r.favorites == s.favorites
    ensures Valid(s) ==> Valid(r)
  {
    match Parent(s.store, s.nav.current)
    case None => s
    case Some(p) => NavigateToFolder(s, p)
  }

  function NavigateForward(s: State): (r: State)
    ensures !CanNavigateForward(s) ==> r == s
    ensures CanNavigateForward(s) ==> && r.nav.history == s.nav.history
                                      && r.nav.index == s.nav.index + 1
                                      && r.nav.current == s.nav.history[r.nav.index]
    ensures r.store == s.store && r.favorites == s.favorites
    ensures Valid(s) ==> Valid(r)
  {
    s.(nav := Navigation.NavigateForward(s.nav))
  }

  /** A new folder, stored under push key `key`, is a child of the folder shown
      and so appears among the items shown. */
  function CreateFolder(s: State, key: string, name: string, at: Pos): (r: State)
    ensures key in FolderContents(r) && r.store[key].name == name && r.store[key].position == Some(at)
    ensures r.store.Keys == s.store.Keys + {key} && r.store[key].id == key
    ensures forall k :: k in s.store && k != key ==> k in r.store && r.store[k] == s.store[k]
    ensures r.nav == s.nav && r.favorites == s.favorites
    ensures Valid(s) ==> Valid(r)
  {
    s.(store := Create(s.store, key, name, at, s.nav.current))
  }

  function RenameFolder(s: State, id: string, name: string): (r: State)
    ensures r.store == Rename(s.store, id, name) && r.nav == s.nav && r.favorites == s.favorites
    ensures Valid(s) ==> Valid(r)
  {
    s.(store := Rename(s.store, id, name))
  }

  /** Deleting a folder leaves its favourite copy and its children in place. */
  function DeleteFolder(s: State, id: string): (r: State)
    ensures id !in r.store && r.store.Keys == s.store.Keys - {id}
    ensures forall k :: k in r.store ==> r.store[k] == s.store[k]
    ensures r.favorites == s.favorites && r.nav == s.nav
    ensures Valid(s) ==> Valid(r)
  {
    s.(store := Delete(s.store, id))
  }

  function UpdateFolderPosition(s: State, id: string, at: Pos): (r: State)
    ensures r.store == Move(s.store, id, at) && r.nav == s.nav && r.favorites == s.favorites
    ensures Valid(s) ==> Valid(r)
  {
    s.(store := Move(s.store, id, at))
  }

  function AddToFavorites(s: State, folder: Item): (r: State)
    ensures r.favorites == AddFavorite(s.favorites, folder) && r.store == s.store && r.nav == s.nav
    ensures Valid(s) ==> Valid(r)
  {
    s.(favorites := AddFavorite(s.favorites, folder))
  }

  function RemoveFromFavorites(s: State, id: string): (r: State)
    ensures r.favorites == RemoveFavorite(s.favorites, id) && r.store == s.store && r.nav == s.nav
    ensures Valid(s) ==> Valid(r)
  {
    s.(favorites := RemoveFavorite(s.favorites, id))
  }

  function GetFolderName(s: State, id: string): string
  {
    Name(s.store, id)
  }

  /** Wiping the database leaves only the root folder, no favourites, and a
      history holding just the root. */
  function WipeDatabase(s: State): (r: State)
    ensures r.store.Keys == {Navigation.RootId} && r.store[Navigation.RootId] == RootItem
    ensures |r.favorites| == 0
    ensures r.nav.history == [Navigation.RootId] && r.nav.index == 0 && r.nav.current == Navigation.RootId
    ensures Valid(r) && FolderContents(r) == map[]
  {
    State(RootStore(), map[], Navigation.Start())
  }

  /** One user action on the Finder, with the push key a create would use. */
  datatype Action =
    | Open(target: string)
    | Up
    | Forward
    | NewFolder(key: string, name: string, at: Pos)
    | RenameAction(id: string, name: string)
    | DeleteAction(id: string)
    | MoveAction(id: string, at: Pos)
    | Favorite(favorite: Item)
    | Unfavorite(id: string)
    | Wipe

  function Step(s: State, a: Action): State
  {
    match a
    case Open(f) => NavigateToFolder(s, f)
    case Up => NavigateUp(s)
    case Forward => NavigateForward(s)
    case NewFolder(key, name, at) => CreateFolder(s, key, name, at)
    case RenameAction(id, name) => RenameFolder(s, id, name)
    case DeleteAction(id) => DeleteFolder(s, id)
    case MoveAction(id, at) => UpdateFolderPosition(s, id, at)
    case Favorite(folder) => AddToFavorites(s, folder)
    case Unfavorite(id) => RemoveFromFavorites(s, id)
    case Wipe => WipeDatabase(s)
  }

  function Run(s: State, actions: seq<Action>): State
    decreases |actions|
  {
    if |actions| == 0 then s else Run(Step(s, actions[0]), actions[1..])
  }

  /** Whatever the user does, the cursor stays on the folder shown and every
      record, favourite copies included, stays under its own id. */
  lemma {:induction false} RunPreservesValid(s: State, actions: seq<Action>)
    requires Valid(s)
    ensures Valid(Run(s, actions))
    decreases |actions|
  {
    if |actions| > 0 {
      RunPreservesValid(Step(s, actions[0]), actions[1..]);
    }
  }
}

=== FILE: finder.dfy ===
/** The Finder's explorer view: the decisions its mouse handlers make (show
    the favourites sidebar, favourite or move a dropped folder, the two-step
    creation of a named folder), each returning the explorer's next state and
    the call it makes into the file-system hook. `Perform` applies such a call
    to the hook's state. */
module Finder {
  import opened Common
  import opened Folders
  import FileSystem
  import Navigation

  /** How close to the left edge, in pixels, the pointer brings up the sidebar. */
  const SidebarThreshold := 100

  /** A folder being named before it is created: a temporary id and its place. */
  datatype Pending = Pending(id: string, position: Pos)

  datatype Explorer = Explorer(
    menu: Option<Pos>,
    editing: Option<string>,
    newFolder: Option<Pending>,
    sidebarVisible: bool,
    overSidebar: bool,
    dragging: Option<Item>)

  /** A call into the file-system hook, or none. */
  datatype Call =
    | NoCall
    | Navigate(folderId: string)
    | AddToFavorites(folder: Item)
    | UpdatePosition(id: string, at: Pos)
    | CreateFolder(name: string, at: Pos)
    | RenameFolder(id: string, newName: string)

  datatype Outcome = Outcome(next: Explorer, call: Call)

  /** The explorer as mounted: no menu, nothing in edit mode, pending, dragged
      or over the sidebar, and the sidebar hidden. */
  function Initial(): (e: Explorer)
    ensures e.menu.None? && e.editing.None? && e.newFolder.None? && e.dragging.None?
    ensures !e.sidebarVisible && !e.overSidebar
  {
    Explorer(None, None, None, false, false, None)
  }

  /** Pointer movement: the sidebar shows exactly when the pointer is less than
      100 px from the explorer's left edge or a folder is being dragged. Without
      a mounted explorer nothing happens. */
  function MouseMove(e: Explorer, clientX: int, explorerLeft: Option<int>): (r: Explorer)
    ensures explorerLeft.None? ==> r == e
    ensures explorerLeft.Some? ==>
              && (r.sidebarVisible <==> clientX - explorerLeft.value < SidebarThreshold || e.dragging.Some?)
              && r.(sidebarVisible := e.sidebarVisible) == e
  {
    match explorerLeft
    case None => e
    case Some(left) => e.(sidebarVisible := clientX - left < SidebarThreshold || e.dragging.Some?)
  }

  /** Starting to drag a folder remembers it and shows the sidebar. */
  function DragStart(e: Explorer, folder: Item): (r: Explorer)
    ensures r.dragging == Some(folder) && r.sidebarVisible
    ensures r.(dragging := e.dragging, sidebarVisible := e.sidebarVisible) == e
  {
    e.(dragging := Some(folder), sidebarVisible := true)
  }

  /** Where a dragged folder lands: its old position, 0 on each axis when it
      has none, plus the drag offset. */
  function DropPosition(folder: Item, offset: Pos): (p: Pos)
    ensures folder.position.Some? ==> p == Translate(folder.position.value, offset)
    ensures folder.position.None? ==> p == offset
  {
    var from := if folder.position.Some? then folder.position.value else Pos(0, 0);
    Pos(from.x + offset.x, from.y + offset.y)
  }

  /** The end of a drag: over the sidebar the folder is favourited and keeps its
      place; elsewhere it moves by the offset. Either way the drag is over. */
  function DragEnd(e: Explorer, folder: Item, offset: Pos): (r: Outcome)
    ensures e.overSidebar ==> r.call == AddToFavorites(folder)
    ensures !e.overSidebar ==> r.call == UpdatePosition(folder.id, DropPosition(folder, offset))
    ensures r.next.dragging.None? && !r.next.overSidebar
    ensures r.next.(dragging := e.dragging, overSidebar := e.overSidebar) == e
  {
    var call := if e.overSidebar then AddToFavorites(folder) else UpdatePosition(folder.id, DropPosition(folder, offset));
    Outcome(e.(dragging := None, overSidebar := false), call)
  }

  /** The pointer entering the sidebar shows it and marks a drop target. */
  function SidebarEnter(e: Explorer): (r: Explorer)
    ensures r.sidebarVisible && r.overSidebar
    ensures r.(sidebarVisible := e.sidebarVisible, overSidebar := e.overSidebar) == e
  {
    e.(sidebarVisible := true, overSidebar := true)
  }

  /** Leaving the sidebar hides it unless a folder is being dragged. */
  function SidebarLeave(e: Explorer): (r: Explorer)
    ensures !r.overSidebar
    ensures r.sidebarVisible <==> e.sidebarVisible && e.dragging.Some?
    ensures r.(sidebarVisible := e.sidebarVisible, overSidebar := e.overSidebar) == e
  {
    e.(sidebarVisible := if e.dragging.None? then false else e.sidebarVisible, overSidebar := false)
  }

  /** A right-click opens the menu at the explorer-relative point. */
  function OpenContextMenu(e: Explorer, client: Pos, explorer: Option<Pos>): (r: Explorer)
    ensures explorer.None? ==> r == e
    ensures explorer.Some? ==> r.menu.Some? && Translate(r.menu.value, explorer.value) == client
    ensures r.(menu := e.menu) == e
  {
    match explorer
    case None => e
    case Some(origin) => e.(menu := Some(Pos(client.x - origin.x, client.y - origin.y)))
  }

  function CloseContextMenu(e: Explorer): (r: Explorer)
    ensures r.menu.None? && r.(menu := e.menu) == e
  {
    e.(menu := None)
  }

  /** Double-clicking a folder opens it. */
  function DoubleClickFolder(e: Explorer, folder: Item): (r: Outcome)
    ensures r == Outcome(e, Navigate(folder.id))
  {
    Outcome(e, Navigate(folder.id))
  }

  /** "New Folder" in the menu: only with the menu open, a pending folder with
      temporary id `tempId` is placed at the menu's point and put in edit mode,
      and the menu closes. */
  function CreateFolderFromMenu(e: Explorer, tempId: string): (r: Explorer)
    ensures e.menu.None? ==> r == e
    ensures e.menu.Some? ==> && r.newFolder == Some(Pending(tempId, e.menu.value))
                             && r.editing == Some(tempId)
                             && r.menu.None?
                             && r.(newFolder := e.newFolder, editing := e.editing, menu := e.menu) == e
  {
    match e.menu
    case None => e
    case Some(at) => e.(newFolder := Some(Pending(tempId, at)), editing := Some(tempId), menu := None)
  }

  /** Submitting the pending folder's name: only when one is pending, the folder
      is created at the pending place, and the pending folder and the edit
      marker are cleared. */
  function SubmitNewFolderName(e: Explorer, name: string): (r: Outcome)
    ensures e.newFolder.None? ==> r == Outcome(e, NoCall)
    ensures e.newFolder.Some? ==> && r.call == CreateFolder(name, e.newFolder.value.position)
                                  && r.next == e.(newFolder := None, editing := None)
  {
    match e.newFolder
    case None => Outcome(e, NoCall)
    case Some(pending) => Outcome(e.(newFolder := None, editing := None), CreateFolder(name, pending.position))
  }

  /** Double-clicking a folder's label puts it in edit mode. */
  function StartRename(e: Explorer, folder: Item): (r: Explorer)
    ensures r.editing == Some(folder.id) && r.(editing := e.editing) == e
  {
    e.(editing := Some(folder.id))
  }

  /** Leaving or confirming a label edit renames the folder and ends edit mode. */
  function SubmitRename(e: Explorer, folder: Item, value: string): (r: Outcome)
    ensures r.call == RenameFolder(folder.id, value)
    ensures r.next.editing.None? && r.next.(editing := e.editing) == e
  {
    Outcome(e.(editing := None), RenameFolder(folder.id, value))
  }

  /** What the pointer does around the explorer: move (with the explorer's left
      edge, when it is mounted), enter the sidebar, or leave it. */
  datatype Pointer = Move(clientX: int, explorerLeft: Option<int>) | Enter | Leave

  function Point(e: Explorer, p: Pointer): Explorer
  {
    match p
    case Move(x, left) => MouseMove(e, x, left)
    case Enter => SidebarEnter(e)
    case Leave => SidebarLeave(e)
  }

  function Track(e: Explorer, ps: seq<Pointer>): Explorer
    decreases |ps|
  {
    if |ps| == 0 then e else Track(Point(e, ps[0]), ps[1..])
  }

  /** While a folder is dragged and the sidebar shows, no pointer movement
      hides it or forgets the folder. */
  lemma {:induction false} TrackKeepsDrag(e: Explorer, ps: seq<Pointer>)
    requires e.dragging.Some? && e.sidebarVisible
    ensures Track(e, ps).dragging == e.dragging && Track(e, ps).sidebarVisible
    decreases |ps|
  {
    if |ps| > 0 {
      TrackKeepsDrag(Point(e, ps[0]), ps[1..]);
    }
  }

  /** From the start of a drag to its drop, the sidebar stays visible whatever
      the pointer does, so the favourites are always there to drop on. */
  lemma DragKeepsSidebarVisible(e: Explorer, folder: Item, ps: seq<Pointer>)
    ensures var r := Track(DragStart(e, folder), ps);
            r.sidebarVisible && r.dragging == Some(folder)
  {
    TrackKeepsDrag(DragStart(e, folder), ps);
  }

  /** Without a drag, leaving the sidebar hides it, and a later move brings it
      back exactly when the pointer is near the left edge. */
  lemma {:induction false} LeaveThenMove(e: Explorer, x: int, left: int)
    requires e.dragging.None?
    ensures !SidebarLeave(e).sidebarVisible
    ensures Track(e, [Leave, Move(x, Some(left))]).sidebarVisible <==> x - left < SidebarThreshold
  {
    var ps := [Leave, Move(x, Some(left))];
    var e1 := SidebarLeave(e);
    assert ps[1..] == [Move(x, Some(left))];
    assert Track(e, ps) == Track(e1, [Move(x, Some(left))]);
    assert Track(e1, [Move(x, Some(left))]) == MouseMove(e1, x, Some(left));
  }

  /** The hook's handling of a call; `key` is the push key a create would use. */
  function Perform(fs: FileSystem.State, call: Call, key: string): (r: FileSystem.State)
    ensures call.NoCall? ==> r == fs
    ensures FileSystem.Valid(fs) ==> FileSystem.Valid(r)
  {
    match call
    case NoCall => fs
    case Navigate(id) => FileSystem.NavigateToFolder(fs, id)
    case AddToFavorites(folder) => FileSystem.AddToFavorites(fs, folder)
    case UpdatePosition(id, at) => FileSystem.UpdateFolderPosition(fs, id, at)
    case CreateFolder(name, at) => FileSystem.CreateFolder(fs, key, name, at)
    case RenameFolder(id, name) => FileSystem.RenameFolder(fs, id, name)
  }

  /** A folder dropped on the sidebar becomes a favourite and stays where it was. */
  lemma DropOnSidebarFavourites(e: Explorer, fs: FileSystem.State, folder: Item, offset: Pos, key: string)
    requires e.overSidebar
    ensures var r := Perform(fs, DragEnd(e, folder, offset).call, key);
            && r.store == fs.store && r.nav == fs.nav
            && folder.id in r.favorites && r.favorites[folder.id] == folder
  {
  }

  /** A stored folder dropped anywhere else moves by the drag offset; favourites are untouched. */
  lemma DropElsewhereMoves(e: Explorer, fs: FileSystem.State, folder: Item, offset: Pos, key: string)
    requires !e.overSidebar && folder.id in fs.store
    ensures var r := Perform(fs, DragEnd(e, folder, offset).call, key);
            && r.favorites == fs.favorites && r.nav == fs.nav
            && r.store[folder.id].position == Some(DropPosition(folder, offset))
            && r.store[folder.id].name == fs.store[folder.id].name
  {
  }

  /** A double-click on a folder opens it in the explorer: the history is cut
      after the current entry and the folder is appended, so forward is then
      unavailable; the tree and the favourites are untouched. */
  lemma DoubleClickOpensFolder(e: Explorer, fs: FileSystem.State, folder: Item, key: string)
    ensures var o := DoubleClickFolder(e, folder);
            var r := Perform(fs, o.call, key);
            && o.next == e
            && r.nav == Navigation.NavigateTo(fs.nav, folder.id) && r.nav.current == folder.id
            && r.store == fs.store && r.favorites == fs.favorites
            && (FileSystem.Valid(fs) ==> !FileSystem.CanNavigateForward(r))
  {
  }

  /** Editing a label and leaving it renames exactly that folder in the tree,
      ends edit mode, and leaves the history and the favourites alone. */
  lemma RenameFlow(e: Explorer, fs: FileSystem.State, folder: Item, value: string, key: string)
    ensures var o := SubmitRename(StartRename(e, folder), folder, value);
            var r := Perform(fs, o.call, key);
            && r.store == Folders.Rename(fs.store, folder.id, value)
            && r.nav == fs.nav && r.favorites == fs.favorites
            && o.next == e.(editing := None)
  {
  }

  /** The two-step creation: "New Folder" at menu point `p`, then a name, gives
      a folder with that name at `p` in the folder shown, and leaves nothing
      pending, in edit mode, or open. */
  lemma NewFolderFlow(e: Explorer, fs: FileSystem.State, tempId: string, name: string, key: string)
    requires e.menu.Some?
    ensures var o := SubmitNewFolderName(CreateFolderFromMenu(e, tempId), name);
            var r := Perform(fs, o.call, key);
            && key in FileSystem.FolderContents(r)
            && r.store[key].name == name && r.store[key].position == e.menu
            && o.next.newFolder.None? && o.next.editing.None? && o.next.menu.None?
  {
  }
}

=== FILE: folders.dfy ===
/** The folder tree as it lives in the real-time database: a map from key to
    folder record, plus the favourites map keyed by folder id. Each edit the
    components issue touches one key or one field of one record. */
module Folders {
  import opened Common
  import Navigation

  /** A folder record. `parentId` is `null` only for the root; `position` is
      optional because the explorer guards against records without one. */
  datatype Item = Item(id: string, name: string, parentId: Option<string>, position: Option<Pos>)

  type Store = map<string, Item>

  const UnknownFolder := "Unknown Folder"

  /** The root record the hook writes into an empty tree. */
  const RootItem := Item(Navigation.RootId, "Root", None, Some(Pos(0, 0)))

  /** A tree holding only the root folder. */
  function RootStore(): (r: Store)
    ensures r.Keys == {Navigation.RootId} && r[Navigation.RootId].parentId.None?
    ensures KeysMatch(r)
  {
    map[Navigation.RootId := RootItem]
  }

  /** Every record is stored under its own id. */
  predicate KeysMatch(m: map<string, Item>)
  {
    forall k :: k in m ==> m[k].id == k
  }

  /** The items of folder `f`: exactly the records whose parent is `f`. */
  function Contents(store: Store, f: string): (r: map<string, Item>)
    ensures forall k :: k in r <==> k in store && store[k].parentId == Some(f)
    ensures forall k :: k in r ==> r[k] == store[k]
  {
    map k | k in store && store[k].parentId == Some(f) :: store[k]
  }

  /** The folder "up" leads to: a present, non-empty parent id, if the record has one. */
  function Parent(store: Store, id: string): (r: Option<string>)
    ensures r.Some? <==> id in store && Truthy(store[id].parentId)
    ensures r.Some? ==> r.value != "" && store[id].parentId == r
  {
    if id in store && Truthy(store[id].parentId) then store[id].parentId else None
  }

  /** The label shown for a folder; never empty. */
  function Name(store: Store, id: string): (r: string)
    ensures r != ""
    ensures id in store && store[id].name != "" ==> r == store[id].name
    ensures id !in store || store[id].name == "" ==> r == UnknownFolder
  {
    if id in store && store[id].name != "" then store[id].name else UnknownFolder
  }

  /** Writing a new record under a push key: a new child of `parent`. */
  function Create(store: Store, key: string, name: string, at: Pos, parent: string): (r: Store)
    ensures r.Keys == store.Keys + {key}
    ensures r[key] == Item(key, name, Some(parent), Some(at))
    ensures forall k :: k in store && k != key ==> r[k] == store[k]
    ensures key !in store ==> |r| == |store| + 1
    ensures KeysMatch(store) ==> KeysMatch(r)
  {
    store[key := Item(key, name, Some(parent), Some(at))]
  }

  /** Updating the `name` field of one record; no other key or field changes. */
  function Rename(store: Store, id: string, name: string): (r: Store)
    ensures r.Keys == store.Keys
    ensures forall k :: k in store && k != id ==> r[k] == store[k]
    ensures id in store ==> && r[id].name == name
                            && r[id].id == store[id].id
                            && r[id].parentId == store[id].parentId
                            && r[id].position == store[id].position
    ensures KeysMatch(store) ==> KeysMatch(r)
  {
    if id in store then store[id := store[id].(name := name)] else store
  }

  /** Updating the `position` field of one record; no other key or field changes. */
  function Move(store: Store, id: string, at: Pos): (r: Store)
    ensures r.Keys == store.Keys
    ensures forall k :: k in store && k != id ==> r[k] == store[k]
    ensures id in store ==> && r[id].position == Some(at)
                            && r[id].id == store[id].id
                            && r[id].name == store[id].name
                            && r[id].parentId == store[id].parentId
    ensures KeysMatch(store) ==> KeysMatch(r)
  {
    if id in store then store[id := store[id].(position := Some(at))] else store
  }

  /** Removing one record. Its children stay, still pointing at the removed id. */
  function Delete(store: Store, id: string): (r: Store)
    ensures r.Keys == store.Keys - {id}
    ensures forall k :: k in r ==> r[k] == store[k]
    ensures KeysMatch(store) ==> KeysMatch(r)
  {
    store - {id}
  }

  /** Marking a folder as favourite stores a copy of it under its id. */
  function AddFavorite(favorites: map<string, Item>, folder: Item): (r: map<string, Item>)
    ensures r.Keys == favorites.Keys + {folder.id}
    ensures r[folder.id] == folder
    ensures forall k :: k in favorites && k != folder.id ==> r[k] == favorites[k]
    ensures KeysMatch(favorites) ==> KeysMatch(r)
  {
    favorites[folder.id := folder]
  }

  /** Unmarking removes the copy stored under that id and nothing else. */
  function RemoveFavorite(favorites: map<string, Item>, id: string): (r: map<string, Item>)
    ensures r.Keys == favorites.Keys - {id}
    ensures forall k :: k in r ==> r[k] == favorites[k]
  {
    favorites - {id}
  }

  /** Marking a folder twice is the same as marking it once. */
  lemma AddFavoriteIdempotent(favorites: map<string, Item>, folder: Item)
    ensures AddFavorite(AddFavorite(favorites, folder), folder) == AddFavorite(favorites, folder)
  {
  }

  /** Unmarking a folder that was not a favourite undoes marking it. */
  lemma RemoveUndoesAdd(favorites: map<string, Item>, folder: Item)
    requires folder.id !in favorites
    ensures RemoveFavorite(AddFavorite(favorites, folder), folder.id) == favorites
  {
    assert RemoveFavorite(AddFavorite(favorites, folder), folder.id).Keys == favorites.Keys;
  }

  /** A record without a parent, such as the root, is in no folder's contents,
      and no record is listed in two folders. */
  lemma ContentsArePartition(store: Store, f: string, g: string)
    ensures forall k :: k in store && store[k].parentId.None? ==> k !in Contents(store, f)
    ensures f != g ==> Contents(store, f).Keys !! Contents(store, g).Keys
  {
  }

  /** A created folder appears in the contents of its parent and of no other folder. */
  lemma CreateListsChild(store: Store, key: string, name: string, at: Pos, parent: string, f: string)
    ensures Contents(Create(store, key, name, at, parent), parent)
         == Contents(store, parent)[key := Item(key, name, Some(parent), Some(at))]
    ensures f != parent ==> Contents(Create(store, key, name, at, parent), f) == Contents(store, f) - {key}
  {
  }

  /** Deleting a folder removes it from every listing; its children are still
      listed under the deleted id and so are no longer reachable by navigation. */
  lemma DeleteLeavesOrphans(store: Store, id: string, f: string)
    ensures Contents(Delete(store, id), f) == Contents(store, f) - {id}
    ensures id !in Contents(store, id) ==> Contents(Delete(store, id), id) == Contents(store, id)
  {
  }

  /** Renaming and moving never change which folder lists which record. */
  lemma EditsKeepListing(store: Store, id: string, name: string, at: Pos, f: string)
    ensures Contents(Rename(store, id, name), f).Keys == Contents(store, f).Keys
    ensures Contents(Move(store, id, at), f).Keys == Contents(store, f).Keys
  {
  }

  /** The label follows a rename to a non-empty name and falls back after a delete. */
  lemma NameFollowsEdits(store: Store, id: string, name: string)
    ensures id in store && name != "" ==> Name(Rename(store, id, name), id) == name
    ensures Name(Delete(store, id), id) == UnknownFolder
  {
  }
}

=== FILE: mila.dfy ===
/** The Mila canvas: free text boxes typed at a double-clicked point, a
    slash-command menu that switches the typing style, and folders with the
    same history navigation as the Finder. The text boxes and folders are the
    database maps under `mila/`; push keys arrive as parameters. */
module Mila {
  import opened Common
  import opened Folders
  import Navigation

  /** The one style the command menu offers: ExemplarPro at 1.2em with a red
      gradient clipped to the text. An absent style is the default look. */
  datatype Style = Exemplar

  datatype TextBox = TextBox(text: string, position: Pos, style: Option<Style>)

  /** What was right-clicked: the empty canvas, or a folder. */
  datatype MenuTarget = OnCanvas | OnFolder(folderId: string)

  datatype ContextMenu = ContextMenu(at: Pos, target: MenuTarget)

  datatype State = State(
    textBoxes: map<string, TextBox>,
    folders: Store,
    typing: bool,
    typingAt: Pos,
    text: string,
    menu: Option<ContextMenu>,
    commandMenu: bool,
    command: string,
    style: Option<Style>,
    nav: Navigation.Nav)

  const NewFolderName := "New Folder"
  const RenamedFolderName := "Renamed Folder"
  const ExemplarCommand := "exemplar"

  /** The canvas before its subscriptions deliver: nothing typed or drawn, no
      menu, and the history on the root folder. */
  function Initial(): (s: State)
    ensures Valid(s) && s.nav == Navigation.Start()
    ensures |s.textBoxes| == 0 && |s.folders| == 0
    ensures !s.typing && s.text == "" && s.menu.None? && !s.commandMenu && s.style.None?
    ensures s.typingAt == Pos(0, 0) && s.command == ""
  {
    State(map[], map[], false, Pos(0, 0), "", None, false, "", None, Navigation.Start())
  }

  /** A closed command menu holds no command; an open one holds one that starts with "/". */
  predicate CommandConsistent(s: State)
  {
    && (s.commandMenu ==> StartsWith(s.command, "/"))
    && (!s.commandMenu ==> s.command == "")
  }

  predicate Valid(s: State)
  {
    Navigation.Valid(s.nav) && KeysMatch(s.folders) && CommandConsistent(s)
  }

  /** The subscriptions settling: each list is rebuilt from the database map,
      every folder taking its key as its id. */
  function OnSnapshot(s: State, textBoxes: map<string, TextBox>, folders: Store): (r: State)
    ensures r.textBoxes == textBoxes && r.folders.Keys == folders.Keys && KeysMatch(r.folders)
    ensures forall k :: k in folders ==> r.folders[k].(id := folders[k].id) == folders[k]
    ensures r.(textBoxes := s.textBoxes, folders := s.folders) == s
    ensures Valid(s) ==> Valid(r)
  {
    s.(textBoxes := textBoxes, folders := map k | k in folders :: folders[k].(id := k))
  }

  /** A double-click on the canvas starts typing at the canvas-relative point,
      with empty text and the default style. Without a mounted canvas nothing happens. */
  function CanvasDoubleClick(s: State, client: Pos, canvas: Option<Pos>): (r: State)
    ensures canvas.None? ==> r == s
    ensures canvas.Some? ==> && r.typing && r.text == "" && r.style.None?
                             && Translate(r.typingAt, canvas.value) == client
                             && r.textBoxes == s.textBoxes && r.folders == s.folders && r.nav == s.nav
                             && r.commandMenu == s.commandMenu && r.command == s.command
    ensures canvas.Some? ==> r.(typingAt := s.typingAt, typing := s.typing, text := s.text, style := s.style) == s
    ensures Valid(s) ==> Valid(r)
  {
    match canvas
    case None => s
    case Some(origin) =>
      s.(typingAt := Pos(client.x - origin.x, client.y - origin.y), typing := true, text := "", style := None)
  }

  /** The input's value becomes the text being typed. */
  function InputChange(s: State, value: string): (r: State)
    ensures r.text == value && r.(text := s.text) == s
  {
    s.(text := value)
  }

  /** Committing the typed text: a text box is pushed only when there is text,
      carrying a style only when one is set; typing, the text, the command menu,
      the command and the style are reset either way. */
  function CreateTextBox(s: State, key: string): (r: State)
    ensures s.text != "" ==> && r.textBoxes.Keys == s.textBoxes.Keys + {key}
                             && r.textBoxes[key] == TextBox(s.text, s.typingAt, s.style)
                             && (forall k :: k in s.textBoxes && k != key ==> r.textBoxes[k] == s.textBoxes[k])
    ensures s.text == "" ==> r.textBoxes == s.textBoxes
    ensures !r.typing && r.text == "" && !r.commandMenu && r.command == "" && r.style.None?
    ensures r.folders == s.folders && r.nav == s.nav && r.menu == s.menu && r.typingAt == s.typingAt
    ensures Valid(s) ==> Valid(r)
  {
    var boxes := if s.text != "" then s.textBoxes[key := TextBox(s.text, s.typingAt, s.style)] else s.textBoxes;
    s.(textBoxes := boxes, typing := false, text := "", commandMenu := false, command := "", style := None)
  }

  /** Choosing a command: "exemplar" switches to the exemplar style and clears
      the text; every command closes the menu and clears the command. */
  function CommandSelect(s: State, command: string): (r: State)
    ensures command == ExemplarCommand ==> r.style == Some(Exemplar) && r.text == ""
    ensures command != ExemplarCommand ==> r.style == s.style && r.text == s.text
    ensures !r.commandMenu && r.command == ""
    ensures r.textBoxes == s.textBoxes && r.folders == s.folders && r.nav == s.nav && r.typing == s.typing
    ensures r.(style := s.style, text := s.text, commandMenu := s.commandMenu, command := s.command) == s
    ensures Valid(s) ==> Valid(r)
  {
    var s' := if command == ExemplarCommand then s.(style := Some(Exemplar), text := "") else s;
    s'.(commandMenu := false, command := "")
  }

  /** A key pressed in the typing input. Enter commits; "/" (re)opens the
      command menu; with the menu open, Tab completes "/e" or "/ex" to the
      exemplar command, Escape closes the menu, and any other key is appended to
      the command. With the menu closed, other keys change nothing here. */
  function KeyDown(s: State, key: string, boxKey: string): (r: State)
    ensures key == "Enter" ==> r == CreateTextBox(s, boxKey)
    ensures key == "/" ==> r == s.(commandMenu := true, command := "/")
    ensures key != "Enter" && key != "/" && !s.commandMenu ==> r == s
    ensures key == "Tab" && s.commandMenu && (s.command == "/e" || s.command == "/ex") ==>
              r == CommandSelect(s, ExemplarCommand)
    ensures key == "Escape" && s.commandMenu ==> r == s.(commandMenu := false, command := "")
    ensures && key != "Enter" && key != "/" && key != "Escape" && s.commandMenu
            && !(key == "Tab" && (s.command == "/e" || s.command == "/ex")) ==>
              r == s.(command := s.command + key)
    ensures Valid(s) ==> Valid(r)
  {
    if key == "Enter" then CreateTextBox(s, boxKey)
    else if key == "/" then s.(commandMenu := true, command := "/")
    else if s.commandMenu then
      if key == "Tab" && (s.command == "/ex" || s.command == "/e") then CommandSelect(s, ExemplarCommand)
      else if key == "Escape" then s.(commandMenu := false, command := "")
      else s.(command := s.command + key)
    else s
  }

  /** A run of key presses, with one push key for a commit. */
  function Keys(s: State, keys: seq<string>, boxKey: string): State
    decreases |keys|
  {
    if |keys| == 0 then s else Keys(KeyDown(s, keys[0], boxKey), keys[1..], boxKey)
  }

  /** Typing "/", "e" and Tab while no text is typed selects the exemplar style. */
  lemma SlashETabSelectsExemplar(s: State, boxKey: string)
    ensures var r := Keys(s, ["/", "e", "Tab"], boxKey);
            r.style == Some(Exemplar) && !r.commandMenu && r.command == "" && r.text == ""
  {
    var s1 := KeyDown(s, "/", boxKey);
    var s2 := KeyDown(s1, "e", boxKey);
    assert s2.command == "/e";
    assert Keys(s, ["/", "e", "Tab"], boxKey) == Keys(s2, ["Tab"], boxKey) by {
      assert ["/", "e", "Tab"][1..] == ["e", "Tab"];
      assert ["e", "Tab"][1..] == ["Tab"];
    }
  }

  /** Tab completes only the two shortest prefixes: after "/exe" it is appended
      to the command like any other key. */
  lemma TabAfterLongerPrefixIsAppended(s: State)
    requires s.commandMenu && s.command == "/exe"
    ensures KeyDown(s, "Tab", "") == s.(command := "/exeTab")
  {
  }

  /** However the keys come, a closed menu holds no command and an open one a
      command starting with "/". */
  lemma {:induction false} KeysKeepCommandConsistent(s: State, keys: seq<string>, boxKey: string)
    requires CommandConsistent(s)
    ensures CommandConsistent(Keys(s, keys, boxKey))
    decreases |keys|
  {
    if |keys| > 0 {
      var s' := KeyDown(s, keys[0], boxKey);
      assert CommandConsistent(s') by {
        if keys[0] != "Enter" && keys[0] != "/" && s.commandMenu && keys[0] != "Escape"
           && !(keys[0] == "Tab" && (s.command == "/e" || s.command == "/ex")) {
          assert s'.command[..1] == s.command[..1];
        }
      }
      KeysKeepCommandConsistent(s', keys[1..], boxKey);
    }
  }

  /** Dragging a text box writes only that box's position. */
  function TextBoxDrag(s: State, id: string, at: Pos): (r: State)
    ensures r.textBoxes.Keys == s.textBoxes.Keys
    ensures forall k :: k in s.textBoxes && k != id ==> r.textBoxes[k] == s.textBoxes[k]
    ensures id in s.textBoxes ==> r.textBoxes[id] == s.textBoxes[id].(position := at)
    ensures r.(textBoxes := s.textBoxes) == s
  {
    if id in s.textBoxes then s.(textBoxes := s.textBoxes[id := s.textBoxes[id].(position := at)]) else s
  }

  function OpenContextMenu(s: State, at: Pos, target: MenuTarget): (r: State)
    ensures r.menu == Some(ContextMenu(at, target)) && r.(menu := s.menu) == s
  {
    s.(menu := Some(ContextMenu(at, target)))
  }

  function CloseContextMenu(s: State): (r: State)
    ensures r.menu.None? && r.(menu := s.menu) == s
  {
    s.(menu := None)
  }

  /** A plain click on the canvas commits any text being typed and closes the context menu. */
  function CanvasClick(s: State, boxKey: string): (r: State)
    ensures r.menu.None? && !r.typing
    ensures s.typing ==> r == CreateTextBox(s, boxKey).(menu := None)
    ensures !s.typing ==> r == s.(menu := None)
    ensures Valid(s) ==> Valid(r)
  {
    CloseContextMenu(if s.typing then CreateTextBox(s, boxKey) else s)
  }

  /** Wiping the canvas empties both lists and closes the context menu; the
      navigation history, typing state and command menu are left as they were. */
  function Wipe(s: State): (r: State)
    ensures |r.textBoxes| == 0 && |r.folders| == 0 && r.menu.None?
    ensures r.nav == s.nav && r.typing == s.typing && r.text == s.text
    ensures r.commandMenu == s.commandMenu && r.command == s.command && r.style == s.style
    ensures r.(textBoxes := s.textBoxes, folders := s.folders, menu := s.menu) == s
    ensures Valid(s) ==> Valid(r)
  {
    s.(textBoxes := map[], folders := map[], menu := None)
  }

  /** The folders drawn: exactly those whose parent is the current folder. */
  function VisibleFolders(s: State): (r: map<string, Item>)
    ensures forall k :: k in r <==> k in s.folders && s.folders[k].parentId == Some(s.nav.current)
    ensures forall k :: k in r ==> r[k] == s.folders[k]
  {
    Contents(s.folders, s.nav.current)
  }

  /** A new folder is created inside the current folder, so it is drawn at once. */
  function CreateFolder(s: State, key: string, name: string, at: Pos): (r: State)
    ensures key in VisibleFolders(r) && r.folders[key] == Item(key, name, Some(s.nav.current), Some(at))
    ensures r.folders.Keys == s.folders.Keys + {key}
    ensures forall k :: k in s.folders && k != key ==> k in r.folders && r.folders[k] == s.folders[k]
    ensures r.(folders := s.folders) == s
    ensures Valid(s) ==> Valid(r)
  {
    s.(folders := Create(s.folders, key, name, at, s.nav.current))
  }

  function NavigateToFolder(s: State, f: string): (r: State)
    ensures r.nav.current == f && r.nav == Navigation.NavigateTo(s.nav, f)
    ensures r.(nav := s.nav) == s
    ensures Valid(s) ==> Valid(r) && ForwardDisabled(r)
  {
    s.(nav := Navigation.NavigateTo(s.nav, f))
  }

  /** "Up" looks the current folder up among the folders (whose ids are their
      keys); it does nothing when none matches, as for "root", or when the
      parent id is null or empty. */
  function NavigateUp(s: State): (r: State)
    ensures s.nav.current !in s.folders ==> r == s
    ensures s.nav.current in s.folders && !Truthy(s.folders[s.nav.current].parentId) ==> r == s
    ensures s.nav.current in s.folders && Truthy(s.folders[s.nav.current].parentId) ==>
              r == NavigateToFolder(s, s.folders[s.nav.current].parentId.value)
    ensures Valid(s) ==> Valid(r)
  {
    match Parent(s.folders, s.nav.current)
    case None => s
    case Some(p) => NavigateToFolder(s, p)
  }

  function NavigateForward(s: State): (r: State)
    ensures ForwardDisabled(s) ==> r == s
    ensures !ForwardDisabled(s) ==> && r.nav.history == s.nav.history
                                    && r.nav.index == s.nav.index + 1
                                    && r.nav.current == s.nav.history[r.nav.index]
    ensures r.(nav := s.nav) == s
    ensures Valid(s) ==> Valid(r)
  {
    s.(nav := Navigation.NavigateForward(s.nav))
  }

  /** The Forward button is disabled exactly when the cursor is on the last entry (or past it). */
  function ForwardDisabled(s: State): (d: bool)
    ensures d <==> !Navigation.CanNavigateForward(s.nav)
    ensures Navigation.Valid(s.nav) ==> (d <==> s.nav.index == |s.nav.history| - 1)
  {
    s.nav.index >= |s.nav.history| - 1
  }

  function FolderDrag(s: State, id: string, at: Pos): (r: State)
    ensures r.folders == Move(s.folders, id, at) && r.(folders := s.folders) == s
    ensures Valid(s) ==> Valid(r)
  {
    s.(folders := Move(s.folders, id, at))
  }

  function RenameFolder(s: State, id: string, name: string): (r: State)
    ensures r.folders == Rename(s.folders, id, name) && r.(folders := s.folders) == s
    ensures Valid(s) ==> Valid(r)
  {
    s.(folders := Rename(s.folders, id, name))
  }

  function DeleteFolder(s: State, id: string): (r: State)
    ensures r.folders == Delete(s.folders, id) && r.(folders := s.folders) == s
    ensures Valid(s) ==> Valid(r)
  {
    s.(folders := Delete(s.folders, id))
  }

  /** A right-click on a drawn folder as the canvas is wired: the folder's
      handler runs first, then the event bubbles to the canvas that contains
      the folder (nothing stops it), and the canvas handler, running last,
      decides the menu. */
  function RightClickFolder(s: State, at: Pos, id: string): (r: State)
    ensures r.menu == Some(ContextMenu(at, OnCanvas)) && r.(menu := s.menu) == s
  {
    OpenContextMenu(OpenContextMenu(s, at, OnFolder(id)), at, OnCanvas)
  }

  /** A right-click on a folder whose event stops at the folder: the folder's
      own menu opens. */
  function FolderContextMenu(s: State, at: Pos, id: string): (r: State)
    ensures r.menu == Some(ContextMenu(at, OnFolder(id))) && r.(menu := s.menu) == s
  {
    OpenContextMenu(s, at, OnFolder(id))
  }

  /** A double-click on a drawn folder as wired: the folder opens, then the
      event bubbles to the canvas, which starts typing at that point. */
  function DoubleClickFolder(s: State, id: string, client: Pos, canvas: Option<Pos>): (r: State)
    ensures r.nav == Navigation.NavigateTo(s.nav, id) && r.folders == s.folders
    ensures canvas.None? ==> r == NavigateToFolder(s, id)
    ensures canvas.Some? ==> r.typing && r.text == "" && Translate(r.typingAt, canvas.value) == client
    ensures canvas.Some? ==> && r.style.None?
                             && r.(typingAt := s.typingAt, typing := s.typing, text := s.text, style := s.style, nav := s.nav) == s
    ensures Valid(s) ==> Valid(r)
  {
    CanvasDoubleClick(NavigateToFolder(s, id), client, canvas)
  }

  /** The entries of the context menu. */
  datatype Choice = NewFolderChoice | WipeChoice | RenameChoice | DeleteChoice

  /** Clicking a menu entry. The canvas menu offers a new folder at the menu's
      point and the wipe; the folder menu offers a fixed rename and the delete
      of that folder. An entry the open menu does not offer changes nothing. */
  function ChooseMenuEntry(s: State, choice: Choice, key: string): (r: State)
    ensures s.menu.None? ==> r == s
    ensures s.menu.Some? && s.menu.value.target.OnCanvas? ==>
              && (choice == NewFolderChoice ==> r == CreateFolder(s, key, NewFolderName, s.menu.value.at))
              && (choice == WipeChoice ==> r == Wipe(s))
              && (choice.RenameChoice? || choice.DeleteChoice? ==> r == s)
    ensures s.menu.Some? && s.menu.value.target.OnFolder? ==>
              var id := s.menu.value.target.folderId;
              && (choice == RenameChoice ==> r == RenameFolder(s, id, RenamedFolderName))
              && (choice == DeleteChoice ==> r == DeleteFolder(s, id))
              && (choice.NewFolderChoice? || choice.WipeChoice? ==> r == s)
    ensures Valid(s) ==> Valid(r)
  {
    match s.menu
    case None => s
    case Some(ContextMenu(at, OnCanvas)) =>
      (match choice
       case NewFolderChoice => CreateFolder(s, key, NewFolderName, at)
       case WipeChoice => Wipe(s)
       case _ => s)
    case Some(ContextMenu(_, OnFolder(id))) =>
      (match choice
       case RenameChoice => RenameFolder(s, id, RenamedFolderName)
       case DeleteChoice => DeleteFolder(s, id)
       case _ => s)
  }

  /** As wired, a folder's menu is never shown: after a right-click on a
      folder, its "Rename" and "Delete" change nothing. */
  lemma FolderMenuUnreachable(s: State, at: Pos, id: string, key: string)
    ensures var m := RightClickFolder(s, at, id);
            ChooseMenuEntry(m, RenameChoice, key) == m && ChooseMenuEntry(m, DeleteChoice, key) == m
  {
  }

  /** With the event stopped at the folder, its menu renames and deletes that folder. */
  lemma FolderMenuReachesFolder(s: State, at: Pos, id: string, key: string)
    requires id in s.folders
    ensures ChooseMenuEntry(FolderContextMenu(s, at, id), RenameChoice, key).folders[id].name == RenamedFolderName
    ensures id !in ChooseMenuEntry(FolderContextMenu(s, at, id), DeleteChoice, key).folders
  {
  }

  /** As wired, double-clicking a folder while nothing is typed opens it and
      also leaves a typing input open at that point in the folder just opened;
      opening the folder alone leaves typing off. */
  lemma FolderDoubleClickStartsTyping(s: State, id: string, client: Pos, canvas: Pos)
    requires !s.typing
    ensures DoubleClickFolder(s, id, client, Some(canvas)).typing
    ensures DoubleClickFolder(s, id, client, Some(canvas)).nav.current == id
    ensures !NavigateToFolder(s, id).typing
  {
  }

  /** One user action on the canvas; `key` is the push key a write would use. */
  datatype Action =
    | DoubleClick(client: Pos, canvas: Option<Pos>)
    | Change(value: string)
    | Key(pressed: string, key: string)
    | Select(command: string)
    | DragBox(boxId: string, boxAt: Pos)
    | CanvasMenu(at: Pos)
    | FolderMenu(at: Pos, menuFolder: string)
    | RightClickOnFolder(clickAt: Pos, clickFolder: string)
    | DoubleClickOnFolder(openedFolder: string, openClient: Pos, openCanvas: Option<Pos>)
    | CloseMenu
    | Click(key: string)
    | Choose(choice: Choice, key: string)
    | OpenFolder(folderId: string)
    | Up
    | Forward
    | DragFolder(folderId: string, folderAt: Pos)

  function Step(s: State, a: Action): (r: State)
    ensures Valid(s) ==> Valid(r)
  {
    match a
    case DoubleClick(client, canvas) => CanvasDoubleClick(s, client, canvas)
    case Change(value) => InputChange(s, value)
    case Key(pressed, key) => KeyDown(s, pressed, key)
    case Select(command) => CommandSelect(s, command)
    case DragBox(id, at) => TextBoxDrag(s, id, at)
    case CanvasMenu(at) => OpenContextMenu(s, at, OnCanvas)
    case FolderMenu(at, id) => FolderContextMenu(s, at, id)
    case RightClickOnFolder(at, id) => RightClickFolder(s, at, id)
    case DoubleClickOnFolder(id, client, canvas) => DoubleClickFolder(s, id, client, canvas)
    case CloseMenu => CloseContextMenu(s)
    case Click(key) => CanvasClick(s, key)
    case Choose(choice, key) => ChooseMenuEntry(s, choice, key)
    case OpenFolder(id) => NavigateToFolder(s, id)
    case Up => NavigateUp(s)
    case Forward => NavigateForward(s)
    case DragFolder(id, at) => FolderDrag(s, id, at)
  }

  function Run(s: State, actions: seq<Action>): State
    decreases |actions|
  {
    if |actions| == 0 then s else Run(Step(s, actions[0]), actions[1..])
  }

  /** Every sequence of actions keeps the cursor on the folder shown, folder
      ids equal to their keys, and the command menu consistent. */
  lemma {:induction false} RunPreservesValid(s: State, actions: seq<Action>)
    requires Valid(s)
    ensures Valid(Run(s, actions))
    decreases |actions|
  {
    if |actions| > 0 {
      RunPreservesValid(Step(s, actions[0]), actions[1..]);
    }
  }
}

=== FILE: navigation.dfy ===
/** Browser-style folder history, as kept by the file-system hook and, in a
    copy of the same code, by the Mila canvas: a list of visited folder ids,
    a cursor into it, and the folder on screen. There is no "back" action in
    either component; "up" goes through `NavigateTo`. */
module Navigation {

  datatype Nav = Nav(history: seq<string>, index: nat, current: string)

  const RootId := "root"

  /** The cursor lies inside the history and points at the folder shown. */
  predicate Valid(n: Nav)
  {
    n.index < |n.history| && n.history[n.index] == n.current
  }

  /** The Forward button is enabled exactly when entries lie beyond the cursor. */
  predicate CanNavigateForward(n: Nav)
  {
    n.index < |n.history| - 1
  }

  /** The state both components start in, and the one a wipe returns to. */
  function Start(): (n: Nav)
    ensures Valid(n) && n.current == RootId && n.history == [RootId] && n.index == 0
    ensures !CanNavigateForward(n)
  {
    Nav([RootId], 0, RootId)
  }

  /** Opening folder `f`: the history is cut just after the cursor (JavaScript's
      `slice` clamps an end past the length), `f` is appended, and the cursor
      advances by one. */
  function NavigateTo(n: Nav, f: string): (r: Nav)
    ensures r.current == f && r.index == n.index + 1
    ensures Valid(n) ==> && Valid(r)
                         && !CanNavigateForward(r)
                         && |r.history| == n.index + 2
                         && r.history[..n.index + 1] == n.history[..n.index + 1]
  {
    var kept := if n.index + 1 <= |n.history| then n.history[..n.index + 1] else n.history;
    Nav(kept + [f], n.index + 1, f)
  }

  /** Forward: a no-op at the end of the history, otherwise one step along it. */
  function NavigateForward(n: Nav): (r: Nav)
    ensures !CanNavigateForward(n) ==> r == n
    ensures CanNavigateForward(n) ==> && r.history == n.history
                                      && r.index == n.index + 1
                                      && r.current == n.history[n.index + 1]
    ensures Valid(n) ==> Valid(r)
  {
    if n.index < |n.history| - 1 then Nav(n.history, n.index + 1, n.history[n.index + 1]) else n
  }

  /** Pressing Forward `k` times. */
  function ForwardTimes(n: Nav, k: nat): Nav
    decreases k
  {
    if k == 0 then n else ForwardTimes(NavigateForward(n), k - 1)
  }

  function Min(a: int, b: int): int
  {
    if a < b then a else b
  }

  /** Repeated Forward walks the history one entry per press and stops at its
      last entry; the history itself never changes. */
  lemma {:induction false} ForwardTimesReaches(n: Nav, k: nat)
    requires Valid(n)
    decreases k
    ensures var m := Min(n.index + k, |n.history| - 1);
            ForwardTimes(n, k) == Nav(n.history, m, n.history[m])
  {
    if k > 0 {
      var n' := NavigateForward(n);
      ForwardTimesReaches(n', k - 1);
    }
  }

  /** Right after opening a folder, Forward does nothing, however often it is pressed. */
  lemma {:induction false} ForwardAfterNavigateIsNoop(n: Nav, f: string, k: nat)
    requires Valid(n)
    ensures ForwardTimes(NavigateTo(n, f), k) == NavigateTo(n, f)
  {
    var r := NavigateTo(n, f);
    ForwardTimesReaches(r, k);
  }
}

=== FILE: seqs.dfy ===
/** The array helpers the handlers use (`filter`, `findIndex`), over Dafny
    sequences, with the order facts the window lists rely on. */
module Seqs {
  import opened Common

  /** `a` is `b` with some elements deleted and the rest kept in their order. */
  predicate Subsequence<T(==)>(a: seq<T>, b: seq<T>)
    decreases |b|
  {
    || |a| == 0
    || (&& |b| > 0
        && ((a[0] == b[0] && Subsequence(a[1..], b[1..])) || Subsequence(a, b[1..])))
  }

  /** Every earlier element stands in `rel` to every later one. */
  predicate Pairwise<T>(s: seq<T>, rel: (T, T) -> bool)
  {
    forall i, j :: 0 <= i < j < |s| ==> rel(s[i], s[j])
  }

  /** `s.filter(keep)`: exactly the elements satisfying `keep`, in their original order. */
  function Filter<T(==)>(s: seq<T>, keep: T -> bool): (r: seq<T>)
    ensures |r| <= |s|
    ensures forall i :: 0 <= i < |r| ==> keep(r[i])
    ensures forall i :: 0 <= i < |s| && keep(s[i]) ==> s[i] in r
  {
    if |s| == 0 then []
    else if keep(s[0]) then [s[0]] + Filter(s[1..], keep)
    else Filter(s[1..], keep)
  }

  /** `s.findIndex(p)` as an option: the first index whose element satisfies `p`. */
  function Find<T>(s: seq<T>, p: T -> bool): (r: Option<nat>)
    ensures r.Some? ==> r.value < |s| && p(s[r.value]) && forall j :: 0 <= j < r.value ==> !p(s[j])
    ensures r.None? <==> forall j :: 0 <= j < |s| ==> !p(s[j])
  {
    if |s| == 0 then None
    else if p(s[0]) then Some(0)
    else match Find(s[1..], p)
      case None => None
      case Some(k) => Some(k + 1)
  }

  /** Filtering keeps the surviving elements in their original order. */
  lemma {:induction false} FilterIsSubsequence<T>(s: seq<T>, keep: T -> bool)
    ensures Subsequence(Filter(s, keep), s)
  {
    if |s| > 0 {
      FilterIsSubsequence(s[1..], keep);
      if keep(s[0]) {
        assert Filter(s, keep)[1..] == Filter(s[1..], keep);
      }
    }
  }

  /** Filtering keeps every kept element as often as it occurs and drops
      every other one entirely. */
  lemma {:induction false} FilterMultiset<T>(s: seq<T>, keep: T -> bool)
    ensures forall x :: multiset(Filter(s, keep))[x] == if keep(x) then multiset(s)[x] else 0
  {
    if |s| > 0 {
      FilterMultiset(s[1..], keep);
      assert s == [s[0]] + s[1..];
    }
  }

  /** Filtering commutes with concatenation: filtering never reorders. */
  lemma {:induction false} FilterConcat<T>(a: seq<T>, b: seq<T>, keep: T -> bool)
    ensures Filter(a + b, keep) == Filter(a, keep) + Filter(b, keep)
  {
    if |a| == 0 {
      assert a + b == b;
    } else {
      assert (a + b)[0] == a[0];
      assert (a + b)[1..] == a[1..] + b;
      FilterConcat(a[1..], b, keep);
    }
  }

  /** Filtering with a predicate that keeps everything returns the sequence itself. */
  lemma {:induction false} FilterKeepsAll<T>(s: seq<T>, keep: T -> bool)
    requires forall i :: 0 <= i < |s| ==> keep(s[i])
    ensures Filter(s, keep) == s
  {
    if |s| > 0 {
      FilterKeepsAll(s[1..], keep);
    }
  }

  /** When exactly the element at `k` is rejected, filtering deletes that one element. */
  lemma {:induction false} FilterDropsOne<T>(s: seq<T>, keep: T -> bool, k: nat)
    requires k < |s| && !keep(s[k])
    requires forall i :: 0 <= i < |s| && i != k ==> keep(s[i])
    ensures Filter(s, keep) == s[..k] + s[k + 1..]
  {
    var tail := s[1..];
    forall i | 0 <= i < |tail| && i != k - 1
      ensures keep(tail[i])
    {
      assert tail[i] == s[i + 1];
    }
    if k == 0 {
      FilterKeepsAll(tail, keep);
      assert s[..k] + s[k + 1..] == tail;
    } else {
      FilterDropsOne(tail, keep, k - 1);
      assert keep(s[0]);
      assert Filter(s, keep) == [s[0]] + Filter(tail, keep);
      assert tail[..k - 1] == s[1..k] && tail[k..] == s[k + 1..];
      assert s[..k] == [s[0]] + s[1..k];
    }
  }

  /** A subsequence holds only elements of the sequence it was taken from. */
  lemma {:induction false} SubsequenceMembers<T>(a: seq<T>, b: seq<T>)
    requires Subsequence(a, b)
    ensures forall x :: x in a ==> x in b
  {
    if |a| > 0 {
      if a[0] == b[0] && Subsequence(a[1..], b[1..]) {
        SubsequenceMembers(a[1..], b[1..]);
        forall x | x in a ensures x in b {
          if x != a[0] {
            assert x in a[1..];
          }
        }
      } else {
        SubsequenceMembers(a, b[1..]);
      }
    }
  }

  /** An order-respecting pairwise property survives taking a subsequence. */
  lemma {:induction false} SubsequencePairwise<T>(a: seq<T>, b: seq<T>, rel: (T, T) -> bool)
    requires Subsequence(a, b) && Pairwise(b, rel)
    ensures Pairwise(a, rel)
  {
    if |a| > 0 {
      assert Pairwise(b[1..], rel) by {
        forall i, j | 0 <= i < j < |b| - 1 ensures rel(b[1..][i], b[1..][j]) {
          assert b[1..][i] == b[i + 1] && b[1..][j] == b[j + 1];
        }
      }
      if a[0] == b[0] && Subsequence(a[1..], b[1..]) {
        SubsequencePairwise(a[1..], b[1..], rel);
        SubsequenceMembers(a[1..], b[1..]);
        forall i, j | 0 <= i < j < |a| ensures rel(a[i], a[j]) {
          assert a[j] == a[1..][j - 1];
          if i == 0 {
            assert a[j] in b[1..];
            var k :| 0 <= k < |b| - 1 && b[1..][k] == a[j];
            assert rel(b[0], b[k + 1]);
          } else {
            assert a[i] == a[1..][i - 1];
          }
        }
      } else {
        SubsequencePairwise(a, b[1..], rel);
      }
    }
  }
}

=== FILE: text_editor.dfy ===
/** The text editor app: text typed at a double-clicked point of the canvas
    becomes a text box in the database on Enter. Typing "/exemplar" at the end
    of the input switches to the exemplar look, which then stays until the
    text is committed or typing restarts. Push keys arrive as parameters. */
module TextEditor {
  import opened Common

  /** The two looks of typed text: Dank Mono italic in grey (#748393), and
      ExemplarPro at 1.4em with a red gradient clipped to the text. */
  datatype Style = DankMono | ExemplarPro

  datatype TextBox = TextBox(text: string, position: Pos, style: Style)

  datatype State = State(
    textBoxes: map<string, TextBox>,
    typing: bool,
    typingAt: Pos,
    text: string,
    style: Style,
    exemplar: bool,
    menu: Option<Pos>)

  const ExemplarSuffix := "/exemplar"

  function Initial(): (s: State)
    ensures StyleFollowsMode(s) && !s.typing && |s.textBoxes| == 0
    ensures !s.exemplar && s.style == DankMono && s.text == "" && s.menu.None?
    ensures s.typingAt == Pos(0, 0)
  {
    State(map[], false, Pos(0, 0), "", DankMono, false, None)
  }

  /** The exemplar look is in use exactly when exemplar mode is on. */
  predicate StyleFollowsMode(s: State)
  {
    (s.style == ExemplarPro) == s.exemplar
  }

  /** The subscription: the local list follows the database (empty when it is empty). */
  function OnSnapshot(s: State, textBoxes: map<string, TextBox>): (r: State)
    ensures r.textBoxes == textBoxes && r.(textBoxes := s.textBoxes) == s
  {
    s.(textBoxes := textBoxes)
  }

  /** A double-click starts typing at the canvas-relative point with empty text,
      the default look and exemplar mode off. Without a mounted canvas nothing happens. */
  function CanvasDoubleClick(s: State, client: Pos, canvas: Option<Pos>): (r: State)
    ensures canvas.None? ==> r == s
    ensures canvas.Some? ==> && r.typing && r.text == "" && r.style == DankMono && !r.exemplar
                             && Translate(r.typingAt, canvas.value) == client
                             && r.textBoxes == s.textBoxes && r.menu == s.menu
    ensures StyleFollowsMode(s) ==> StyleFollowsMode(r)
  {
    match canvas
    case None => s
    case Some(origin) =>
      s.(typingAt := Pos(client.x - origin.x, client.y - origin.y), typing := true, text := "",
         style := DankMono, exemplar := false)
  }

  /** Committing: a box with the text, the typing point and the current look is
      pushed only when there is text; typing stops and the text, look and mode
      are reset either way. */
  function CreateTextBox(s: State, key: string): (r: State)
    ensures s.text != "" ==> && r.textBoxes.Keys == s.textBoxes.Keys + {key}
                             && r.textBoxes[key] == TextBox(s.text, s.typingAt, s.style)
                             && (forall k :: k in s.textBoxes && k != key ==> r.textBoxes[k] == s.textBoxes[k])
    ensures s.text == "" ==> r.textBoxes == s.textBoxes
    ensures !r.typing && r.text == "" && r.style == DankMono && !r.exemplar
    ensures r.typingAt == s.typingAt && r.menu == s.menu
    ensures StyleFollowsMode(r)
  {
    var boxes := if s.text != "" then s.textBoxes[key := TextBox(s.text, s.typingAt, s.style)] else s.textBoxes;
    s.(textBoxes := boxes, typing := false, text := "", style := DankMono, exemplar := false)
  }

  /** Only Enter does anything: it commits. */
  function KeyDown(s: State, key: string, boxKey: string): (r: State)
    ensures key == "Enter" ==> r == CreateTextBox(s, boxKey)
    ensures key != "Enter" ==> r == s
  {
    if key == "Enter" then CreateTextBox(s, boxKey) else s
  }

  /** A new input value. If it ends with "/exemplar", that suffix is cut off
      and exemplar mode and look switch on. Otherwise the value is taken as is;
      the default look comes back only when exemplar mode is off, and the mode
      is left as it was. */
  function InputChange(s: State, input: string): (r: State)
    ensures EndsWith(input, ExemplarSuffix) ==>
              r.text + ExemplarSuffix == input && r.exemplar && r.style == ExemplarPro
    ensures !EndsWith(input, ExemplarSuffix) ==> && r.text == input
                                                 && r.exemplar == s.exemplar
                                                 && r.style == (if s.exemplar then s.style else DankMono)
    ensures r.textBoxes == s.textBoxes && r.typing == s.typing && r.typingAt == s.typingAt && r.menu == s.menu
    ensures StyleFollowsMode(s) ==> StyleFollowsMode(r)
  {
    if EndsWith(input, ExemplarSuffix) then
      var text := input[..|input| - |ExemplarSuffix|];
      assert text + ExemplarSuffix == input;
      s.(exemplar := true, style := ExemplarPro, text := text)
    else if s.exemplar then s.(text := input)
    else s.(text := input, style := DankMono)
  }

  /** Dragging a box writes only that box's position. */
  function TextBoxDrag(s: State, id: string, at: Pos): (r: State)
    ensures r.textBoxes.Keys == s.textBoxes.Keys
    ensures forall k :: k in s.textBoxes && k != id ==> r.textBoxes[k] == s.textBoxes[k]
    ensures id in s.textBoxes ==> r.textBoxes[id] == s.textBoxes[id].(position := at)
    ensures r.(textBoxes := s.textBoxes) == s
  {
    if id in s.textBoxes then s.(textBoxes := s.textBoxes[id := s.textBoxes[id].(position := at)]) else s
  }

  function OpenContextMenu(s: State, client: Pos): (r: State)
    ensures r.menu == Some(client) && r.(menu := s.menu) == s
  {
    s.(menu := Some(client))
  }

  function CloseContextMenu(s: State): (r: State)
    ensures r.menu.None? && r.(menu := s.menu) == s
  {
    s.(menu := None)
  }

  /** The wipe empties the text-box list and changes nothing else. */
  function Wipe(s: State): (r: State)
    ensures |r.textBoxes| == 0 && r.(textBoxes := s.textBoxes) == s
  {
    s.(textBoxes := map[])
  }

  /** One user action on the editor; `key` is the push key a commit would use. */
  datatype Action =
    | DoubleClick(client: Pos, canvas: Option<Pos>)
    | Change(input: string)
    | Key(pressed: string, key: string)
    | DragBox(id: string, at: Pos)
    | Menu(at: Pos)
    | CloseMenu
    | WipeAll

  function Step(s: State, a: Action): State
  {
    match a
    case DoubleClick(client, canvas) => CanvasDoubleClick(s, client, canvas)
    case Change(input) => InputChange(s, input)
    case Key(pressed, key) => KeyDown(s, pressed, key)
    case DragBox(id, at) => TextBoxDrag(s, id, at)
    case Menu(at) => OpenContextMenu(s, at)
    case CloseMenu => CloseContextMenu(s)
    case WipeAll => Wipe(s)
  }

  function Run(s: State, actions: seq<Action>): State
    decreases |actions|
  {
    if |actions| == 0 then s else Run(Step(s, actions[0]), actions[1..])
  }

  /** The actions that leave exemplar mode: a double-click on the mounted canvas, and Enter. */
  predicate EndsExemplar(a: Action)
  {
    (a.DoubleClick? && a.canvas.Some?) || (a.Key? && a.pressed == "Enter")
  }

  /** The look always matches the mode, whatever the user does. */
  lemma {:induction false} RunKeepsStyleFollowsMode(s: State, actions: seq<Action>)
    requires StyleFollowsMode(s)
    ensures StyleFollowsMode(Run(s, actions))
    decreases |actions|
  {
    if |actions| > 0 {
      RunKeepsStyleFollowsMode(Step(s, actions[0]), actions[1..]);
    }
  }

  /** Exemplar mode is sticky: once on, it stays on through every action that
      is neither a commit nor a fresh double-click. */
  lemma {:induction false} ExemplarIsSticky(s: State, actions: seq<Action>)
    requires s.exemplar
    requires forall i :: 0 <= i < |actions| ==> !EndsExemplar(actions[i])
    ensures Run(s, actions).exemplar
    decreases |actions|
  {
    if |actions| > 0 {
      ExemplarIsSticky(Step(s, actions[0]), actions[1..]);
    }
  }
}

=== FILE: window_manager.dfy ===
/** The window-manager hook: an ordered list of open windows, each with a
    stacking order (`zIndex`). Opening appends, closing filters by id, and
    focusing moves a window to the end above all others. `Date.now()` ids
    arrive as a parameter. */
module WindowManager {
  import opened Common
  import opened Seqs

  datatype Window = Window(id: int, appId: string, title: string, isFullscreen: bool, zIndex: int)

  function HasId(id: int): Window -> bool
  {
    (w: Window) => w.id == id
  }

  function NotId(id: int): Window -> bool
  {
    (w: Window) => w.id != id
  }

  /** No two windows share an id. */
  predicate UniqueIds(ws: seq<Window>)
  {
    forall i, j :: 0 <= i < |ws| && 0 <= j < |ws| && ws[i].id == ws[j].id ==> i == j
  }

  /** The title of an app's window: its first character upper-cased, the rest as given. */
  function Title(appId: string): (t: string)
    ensures |t| == |appId|
    ensures |appId| > 0 ==> t[0] == UpperChar(appId[0]) && t[1..] == appId[1..]
  {
    if |appId| == 0 then "" else [UpperChar(appId[0])] + appId[1..]
  }

  /** Capitalising an already capitalised title changes nothing. */
  lemma TitleIdempotent(appId: string)
    ensures Title(Title(appId)) == Title(appId)
  {
  }

  /** Opening an app appends one full-screen window whose stacking order is the
      number of windows before it; the earlier windows are untouched. */
  function OpenWindow(ws: seq<Window>, appId: string, now: int): (r: seq<Window>)
    ensures |r| == |ws| + 1 && r[..|ws|] == ws
    ensures r[|ws|] == Window(now, appId, Title(appId), true, |ws|)
  {
    ws + [Window(now, appId, Title(appId), true, |ws|)]
  }

  /** Closing removes every window with that id and keeps the rest in order,
      each as many times as it occurred. */
  function CloseWindow(ws: seq<Window>, id: int): (r: seq<Window>)
    ensures forall i :: 0 <= i < |r| ==> r[i].id != id
    ensures forall i :: 0 <= i < |ws| && ws[i].id != id ==> ws[i] in r
    ensures Subsequence(r, ws)
    ensures Find(ws, HasId(id)).None? ==> r == ws
    ensures UniqueIds(ws) && Find(ws, HasId(id)).Some? ==> |r| == |ws| - 1
    ensures forall w :: multiset(r)[w] == if w.id != id then multiset(ws)[w] else 0
  {
    var r := Filter(ws, NotId(id));
    FilterIsSubsequence(ws, NotId(id));
    FilterMultiset(ws, NotId(id));
    match Find(ws, HasId(id))
    case None =>
      FilterKeepsAll(ws, NotId(id));
      r
    case Some(k) =>
      if UniqueIds(ws) then
        assert forall i :: 0 <= i < |ws| && i != k ==> NotId(id)(ws[i]);
        FilterDropsOne(ws, NotId(id), k);
        r
      else r
  }

  /** `Math.max` over the stacking orders of a non-empty list. */
  function MaxZ(ws: seq<Window>): (m: int)
    requires |ws| > 0
    ensures forall i :: 0 <= i < |ws| ==> ws[i].zIndex <= m
    ensures exists i :: 0 <= i < |ws| && ws[i].zIndex == m
  {
    if |ws| == 1 then ws[0].zIndex
    else
      var rest := MaxZ(ws[1..]);
      if ws[0].zIndex > rest then ws[0].zIndex else rest
  }

  /** Windows taken from a list whose stacking orders are at most `m` all lie below `m + 1`. */
  lemma BelowNewTop(others: seq<Window>, ws: seq<Window>, m: int)
    requires Subsequence(others, ws)
    requires forall j :: 0 <= j < |ws| ==> ws[j].zIndex <= m
    ensures forall i :: 0 <= i < |others| ==> others[i].zIndex < m + 1
  {
    SubsequenceMembers(others, ws);
    forall i | 0 <= i < |others| ensures others[i].zIndex < m + 1 {
      assert others[i] in others;
      var j :| 0 <= j < |ws| && ws[j] == others[i];
    }
  }

  /** Appending a window at stacking order `m + 1` to windows all below it puts it on top. */
  lemma PutOnTop(others: seq<Window>, w: Window, m: int)
    requires forall i :: 0 <= i < |others| ==> others[i].zIndex < m + 1
    ensures var r := others + [w.(zIndex := m + 1)];
            && r[..|r| - 1] == others && r[|r| - 1] == w.(zIndex := m + 1)
            && forall i :: 0 <= i < |r| - 1 ==> r[i].zIndex < r[|r| - 1].zIndex
  {
    var r := others + [w.(zIndex := m + 1)];
    assert r[..|r| - 1] == others;
  }

  /** Focusing an unknown id changes nothing. Otherwise the first window with
      that id moves to the end, above every other window, while the others keep
      their order and fields. */
  function FocusWindow(ws: seq<Window>, id: int): (r: seq<Window>)
    ensures Find(ws, HasId(id)).None? ==> r == ws
    ensures Find(ws, HasId(id)).Some? ==>
              var w := ws[Find(ws, HasId(id)).value];
              && |r| > 0
              && r[..|r| - 1] == CloseWindow(ws, id)
              && r[|r| - 1] == w.(zIndex := MaxZ(ws) + 1)
              && (forall i :: 0 <= i < |r| - 1 ==> r[i].zIndex < r[|r| - 1].zIndex)
  {
    match Find(ws, HasId(id))
    case None => ws
    case Some(k) =>
      var others := CloseWindow(ws, id);
      var m := MaxZ(ws);
      BelowNewTop(others, ws, m);
      PutOnTop(others, ws[k], m);
      others + [ws[k].(zIndex := m + 1)]
  }

  /** With unique ids, focusing keeps the number of windows. */
  lemma FocusKeepsCount(ws: seq<Window>, id: int)
    requires UniqueIds(ws)
    ensures |FocusWindow(ws, id)| == |ws|
  {
    if Find(ws, HasId(id)).Some? {
      assert |CloseWindow(ws, id)| == |ws| - 1;
    }
  }

  /** Closing a window right after opening it, under an id no other window has,
      restores the list. */
  lemma CloseUndoesOpen(ws: seq<Window>, appId: string, now: int)
    requires forall i :: 0 <= i < |ws| ==> ws[i].id != now
    ensures CloseWindow(OpenWindow(ws, appId, now), now) == ws
  {
    var w := Window(now, appId, Title(appId), true, |ws|);
    FilterConcat(ws, [w], NotId(now));
    FilterKeepsAll(ws, NotId(now));
  }

  /** A window opened after another was focused twice lands below it: the new
      window's stacking order counts windows, not the orders in use. */
  lemma OpenAfterFocusIsNotAbove()
    ensures var ws := FocusWindow(FocusWindow([Window(1, "finder", "Finder", true, 0)], 1), 1);
            var r := OpenWindow(ws, "mila", 2);
            |r| == 2 && r[0].zIndex == 2 && r[1].zIndex == 1
  {
    var ws0 := [Window(1, "finder", "Finder", true, 0)];
    assert Find(ws0, HasId(1)) == Some(0);
    assert MaxZ(ws0) == 0;
    var ws1 := FocusWindow(ws0, 1);
    assert ws1 == [Window(1, "finder", "Finder", true, 1)];
    assert Find(ws1, HasId(1)) == Some(0);
    assert MaxZ(ws1) == 1;
  }

  /** Opening as evidently intended: the new window goes one above the highest
      stacking order in use (0 on an empty desktop), so it is drawn above every
      window already open, focused or not. */
  function OpenWindowOnTop(ws: seq<Window>, appId: string, now: int): (r: seq<Window>)
    ensures |r| == |ws| + 1 && r[..|ws|] == ws
    ensures r[|ws|].(zIndex := 0) == Window(now, appId, Title(appId), true, 0)
    ensures forall i :: 0 <= i < |ws| ==> r[i].zIndex < r[|ws|].zIndex
    ensures |ws| == 0 ==> r[0].zIndex == 0
  {
    var z := if |ws| == 0 then 0 else MaxZ(ws) + 1;
    ws + [Window(now, appId, Title(appId), true, z)]
  }

  /** While the stacking orders are still 0, 1, 2, ... in list order (no window
      has been focused), the corrected open agrees with the open as written. */
  lemma OnTopAgreesBeforeFocus(ws: seq<Window>, appId: string, now: int)
    requires forall i :: 0 <= i < |ws| ==> ws[i].zIndex == i
    ensures OpenWindowOnTop(ws, appId, now) == OpenWindow(ws, appId, now)
  {
    if |ws| > 0 {
      assert ws[|ws| - 1].zIndex == |ws| - 1;
    }
  }

  /** On the counterexample above, the corrected open places the new window
      strictly above the focused one. */
  lemma OpenOnTopAfterFocusIsAbove()
    ensures var ws := FocusWindow(FocusWindow([Window(1, "finder", "Finder", true, 0)], 1), 1);
            var r := OpenWindowOnTop(ws, "mila", 2);
            |r| == 2 && r[0].zIndex == 2 && r[1].zIndex == 3
  {
    var ws0 := [Window(1, "finder", "Finder", true, 0)];
    assert Find(ws0, HasId(1)) == Some(0);
    assert MaxZ(ws0) == 0;
    var ws1 := FocusWindow(ws0, 1);
    assert ws1 == [Window(1, "finder", "Finder", true, 1)];
    assert Find(ws1, HasId(1)) == Some(0);
    assert MaxZ(ws1) == 1;
    var ws := FocusWindow(ws1, 1);
    assert ws == [Window(1, "finder", "Finder", true, 2)];
    assert MaxZ(ws) == 2;
  }
}
